=== FILE: README.md ===
# Biscuit placement on a defective dough roll

The system cuts biscuits from a one-dimensional dough roll. The roll is
`length` integer slots long and carries point defects, each tagged with a
class. A biscuit type has a name, a length in slots, a value and, per defect
class, the number of defects of that class it tolerates. The aim is to place
non-overlapping biscuits so that each placement respects its tolerance and
the total value is as large as possible.

The model covers two source files:

- `classes.py`. The `Biscuit` and `Defect` records, and the `DoughRoll`
  with its defect buckets, `evaluate_cut`, `is_legal_cut`, `place_biscuit`
  and `evaluate`.
  - Module `Biscuits` holds the records and the declarative per-class
    defect counts.
  - Module `Rolls` models the roll as an immutable value. A failure becomes
    a `Result`: `KeyError` for a defect class missing from a tolerance map,
    and `IllegalCut` for the `ValueError` of `place_biscuit`.
- `optimisation.py`. The placement check `can_place_biscuit`, the
  optimal-value dynamic program `optimize_biscuit_placement`, and
  `get_biscuit_placement_details`, which tracks which cut produced each
  table entry and then walks back over that tracker.
  - Module `Optimisation` defines plans, meaning legal, non-overlapping
    cuts inside a prefix of the roll, and the optimum over them. It proves
    that every entry of the table built by `OptimizeBiscuitPlacement` is
    the optimum for its prefix.
  - Module `PlacementDetails` proves that the tracked sweep fills the same
    table. It also proves what the tracker records and what the walk back
    returns.
  - Module `Agreement` proves that the roll's `evaluate_cut` and the
    optimiser's `can_place_biscuit` accept the same cuts, for a cut that
    ends inside a fresh roll, when every defect class under the cut has a
    threshold and no threshold is negative.
  - Module `Scenarios` works through concrete rolls.

Positions are integers. A defect's position is already its slot, because
`p <= x < p + n` holds exactly when `p <= floor(x) < p + n` for an integer
`p`. The catalog is a sequence in the dictionary's iteration order. A cut is
`Cut(kind, start)`, where `kind` is the catalog index and so stands for the
biscuit name. The dynamic program requires every biscuit length to be
positive (`PositiveLengths`).

With one class-`a` defect at slot 1, a ten-slot roll and one four-slot
biscuit type worth 6 that tolerates no class-`a` defect, the code places
biscuits at slots 2 and 6 for 12 (`Scenarios.DefectOptimum`,
`Scenarios.DefectDetails`).

## Model

| member | source | states |
|---|---|---|
| Biscuits.Copy | classes.py:28-30 | A copied biscuit is equal to the original in all four fields. |
| Rolls.BuildIndex | classes.py:59-64 | The bucket of every slot holds exactly the defects at that slot, in input order. Only slots holding a defect become keys. |
| Rolls.NewRoll | classes.py:55-64 | A fresh roll has the given length, no placements and no occupied slot. Its buckets match the defect list, and it satisfies the roll invariant `Valid`. |
| Rolls.Scan | classes.py:73-84 | The walk over the window returns either -1 or the number of defects walked. When every class is known and no cap is negative, it returns -1 exactly when some class exceeds its cap. A `KeyError` names a class that is absent from the map but present in the window. |
| Rolls.ScanUnknown | classes.py:76-84 | A walk that returns neither -1 nor an error has met only classes the tolerance map knows. |
| Rolls.ScanFirstUnknown | classes.py:76-84 | When every class before position `j` is known and within its cap, and the class at `j` is unknown, the walk raises `KeyError` for that class. So an unknown class raises unless the walk rejects the cut before reaching it. |
| Rolls.EvaluateCut | classes.py:66-84 | A cut's score is -1 or the number of defects under it. With known classes and non-negative caps, -1 means exactly that some class has more defects under the cut than it tolerates. An error is a `KeyError` naming a class that is under the cut but absent from the tolerance map. |
| Rolls.EvaluateCutUnknown | classes.py:66-84 | A cut that `evaluate_cut` neither rejects nor fails has only known classes under it. |
| Rolls.EvaluateCutFirstUnknown | classes.py:66-84 | On a cut, the first defect whose class the biscuit does not list raises `KeyError` for that class, unless an earlier class has already rejected the cut. |
| Rolls.IsLegalCut | classes.py:86-103 | An out-of-bounds or overlapping cut is `false`. A `true` cut is in bounds, free and scores at least 0. An error comes only from the defect check. With known classes and non-negative caps, a free in-bounds cut is legal exactly when no class is exceeded. |
| Rolls.IsLegalCutDefers | classes.py:98-103 | For a free cut inside the roll, `is_legal_cut` passes `evaluate_cut`'s error through, and otherwise is whether the score is not -1. A legal cut has only known classes under it. |
| Rolls.PlaceBiscuit | classes.py:105-125 | Placement succeeds exactly when the cut is legal; otherwise it returns `IllegalCut` or the lookup error. On success it appends the placement with its defect score, marks exactly the cut's slots and raises `evaluate` by the biscuit's value. It also keeps the roll invariant. |
| Rolls.PlaceKeepsValid | classes.py:113-125 | Placing a legal cut keeps every placement in bounds with its own score, keeps the placements pairwise disjoint, and keeps a slot occupied exactly when some placement covers it. |
| Rolls.TotalValueSnoc | classes.py:127-133 | Appending a placement adds its biscuit's value to the roll's total. |
| Rolls.Evaluate | classes.py:127-133 | A roll with no placement is worth 0. When no placement has a negative value, the total is at least 0 and at least the value of each placement. |
| Optimisation.CanPlaceBiscuit | optimisation.py:23-37 | A cut passes when it ends inside the roll and every class in the biscuit's thresholds has at most its threshold of defects in `[position, position + size)`. Classes absent from the thresholds are not checked. |
| Optimisation.CanPlaceWindow | optimisation.py:23-37 | The check holds exactly when the cut ends inside the roll and no class in the thresholds occurs more often than its threshold among the defects filtered to the cut's window. |
| Optimisation.OptimalTableUnique | optimisation.py:45-62 | Each prefix of the roll has at most one optimum plan value, so two tables holding the optimum in every entry are equal. |
| Optimisation.UpperBound | optimisation.py:48-60 | A table that starts non-negative, never decreases and has every fitting cut relaxed is at least the value of any plan inside the prefix. |
| Optimisation.ExtendPlan | optimisation.py:55-60 | A legal cut appended to a plan that ends at its start gives a plan up to the cut's end, worth the old plan plus the biscuit's value. |
| Optimisation.NothingFits | optimisation.py:53-56 | When every biscuit is longer than the prefix, the only plan is the empty one. |
| Optimisation.MonotoneExtend | optimisation.py:50 | The skip-one-slot transition keeps the table non-decreasing one slot further. |
| Optimisation.TableOptimal | optimisation.py:45-62 | A table that starts at 0, is witnessed by plans, never decreases and is fully relaxed holds the optimum in every entry. |
| Optimisation.RelaxLoopStep | optimisation.py:53-60 | Trying one catalog entry at a position keeps every entry witnessed by a plan worth it. It leaves the entries up to that position alone, lowers no entry, and leaves that cut relaxed. |
| Optimisation.RelaxFrom | optimisation.py:52-60 | The inner loop at one position leaves entries up to that position alone and only raises entries. It relaxes every cut starting there, and each raised entry is witnessed by a plan worth it. |
| Optimisation.OptimizeBiscuitPlacement | optimisation.py:43-62 | The returned total is the last table entry. The table starts at 0 and never decreases. Every entry is the best value of any plan of legal, non-overlapping cuts inside that prefix. The total is 0 when no biscuit is short enough. |
| PlacementDetails.RelaxSpec | optimisation.py:73-80 | The tracked inner loop keeps entries up to `position` and only raises entries. It leaves every fitting cut at `position` relaxed. Each changed entry records the earliest cut with the largest candidate at that entry, that is, the last strict improvement. |
| PlacementDetails.Relax | optimisation.py:73-80 | The tracked inner loop at `position` from catalog entry `i` on. A fitting cut whose candidate strictly beats the entry at its end overwrites that entry and records itself in the tracker. Its own contract keeps the table and the tracker `length + 1` long; `RelaxSpec` states what it computes. |
| PlacementDetails.Step | optimisation.py:70-80 | One position of the tracked sweep: the skip-one-slot update of entry `position + 1`, then the inner loop over the whole catalog. Its own contract keeps the lengths; `ValuesStep` and `TrackStep` state what it keeps. |
| PlacementDetails.Sweep | optimisation.py:70-80 | The tracked sweep from `position` to the end of the roll. Its own contract keeps the lengths; `SweepKeeps` states what it keeps. |
| PlacementDetails.Tables | optimisation.py:67-80 | The table and the tracker as `get_biscuit_placement_details` fills them from zeros and empty entries. Its own contract keeps the lengths; `TablesCorrect` states what they hold. |
| PlacementDetails.ValuesStep | optimisation.py:70-80 | One position of the tracked sweep keeps the table invariant: starts at 0, non-decreasing, relaxed and attained by plans. |
| PlacementDetails.TrackStep | optimisation.py:70-80 | One position of the tracked sweep keeps every tracker entry a fitting cut that ends at that entry. The cut's candidate is at most the entry, and no earlier cut reaches that candidate. |
| PlacementDetails.SweepKeeps | optimisation.py:70-80 | The whole tracked sweep keeps the table and tracker invariants. |
| PlacementDetails.TablesCorrect | optimisation.py:67-80 | The table of `get_biscuit_placement_details` holds the optimum in every entry. Every tracker entry is a fitting cut ending there, worth at most the entry, and is the earliest cut to reach its candidate. |
| PlacementDetails.SameTables | optimisation.py:43-80 | The `max` update of `optimize_biscuit_placement` and the strict-improvement update of `get_biscuit_placement_details` fill the same table, and the corrected sweep does too. |
| PlacementDetails.ExactStep | optimisation.py:70-80 | With the correction, a recorded cut produces its entry exactly. An entry with no record is 0 or a copy of the entry before it. One position of the sweep keeps this true. |
| PlacementDetails.CorrectedTablesCorrect | optimisation.py:67-80 | The corrected sweep's table is optimal, and its tracker is both well recorded and exact. |
| PlacementDetails.Reconstruct | optimisation.py:83-94 | The walk back from `current` emits a recorded cut and jumps to its start, or steps back one slot. It emits at most `current` cuts; `ReconstructShape` states which. |
| PlacementDetails.ReconstructShape | optimisation.py:83-94 | The walk back emits only cuts recorded at their own end, inside `[0, current]`, in left-to-right non-overlapping order. |
| PlacementDetails.ReconstructValid | optimisation.py:83-94 | Over the sweep's tracker, the walk back yields a plan of legal, non-overlapping cuts inside the roll. |
| PlacementDetails.ReconstructBound | optimisation.py:83-94 | The walked-back plan is worth at most the table entry it starts from. |
| PlacementDetails.ReconstructExact | optimisation.py:83-94 | Over an exact tracker, the walked-back plan is worth exactly the table entry it starts from. |
| PlacementDetails.GetBiscuitPlacementDetails | optimisation.py:65-94 | The returned placements are legal, non-overlapping and ordered by start, and lie inside the roll. They are worth at most the optimum. They are empty when no biscuit is short enough. |
| PlacementDetails.GetOptimalPlacementDetails | optimisation.py:65-94 | With the stale record cleared, the returned placements are legal and non-overlapping inside the roll and worth exactly the optimum. |
| PlacementDetails.StaleTrackerCounterexample | optimisation.py:70-94 | On a three-slot roll the tracker keeps a cut that no longer produces the final entry. The returned placement is worth 1, while a plan worth 5 exists. |
| PlacementDetails.StaleTrackerCorrected | optimisation.py:70-94 | On the same roll the corrected tracker forgets that cut, and the walk back returns the plan worth 5. |
| Agreement.WindowCount | classes.py:76-78 | Per class, the buckets of a window hold as many defects as the raw list has in that window. |
| Agreement.CutAgreement | optimisation.py:23-37 | On a fresh roll, for a cut that ends inside the roll, `can_place_biscuit` accepts exactly when `evaluate_cut` does not return -1. This needs every defect class in the window to be known and no cap to be negative. |
| Scenarios.OneClass | optimisation.py:31-35 | With one class in the tolerance map, the placement check is the length bound plus one count. |
| Scenarios.Certificate | optimisation.py:45-62 | A table that starts at 0, never decreases and is relaxed, with a plan reaching its last entry, proves that entry is the optimum. |
| Scenarios.PlainOptimum | optimisation.py:43-62 | A ten-slot roll without defects and one four-slot biscuit worth 6 has optimum 12. |
| Scenarios.PairOptimum | optimisation.py:43-62 | A five-slot roll with biscuits of lengths 2 and 3, worth 3 and 5, has optimum 8. |
| Scenarios.LongOptimum | optimisation.py:43-94 | A five-slot roll and only a six-slot biscuit give optimum 0, and both placement functions return no placement. |
| Scenarios.DefectFits | optimisation.py:23-37 | With one intolerable defect at slot 1, the four-slot biscuit fits exactly at starts 2 to 6. |
| Scenarios.DefectOptimum | optimisation.py:43-62 | With that defect the optimum is still 12. |
| Scenarios.DefectSweep | optimisation.py:67-80 | The tracked sweep on that roll gives the table `0,0,0,0,0,0,6,6,6,6,12` and records the cut at 2 at entry 6 and the cut at 6 at entry 10. |
| Scenarios.DefectDetails | optimisation.py:65-94 | On that roll, `get_biscuit_placement_details` places the biscuit at 2 and 6. |

## Left out

- Loading `defects.csv` with pandas, the biscuit table, the global `dough_length = 500` and the driver that prints the results (optimisation.py lines 1-19 and 97-103). These are I/O and fixed data. The functions take the catalog, the roll length and the defect list as parameters.
- `can_place_biscuit` reads the module-level `dough_length` rather than the function's argument. The model passes the roll length explicitly, which is the same value in every call the source makes.
- The genetic-algorithm searches (`genetic_algorithm.py`, `genetic_algorithm_2.py`). They are randomised and outside the modelled core.
- `__str__` and `__repr__` of `Biscuit` and `Defect`. They are formatting only.
- Biscuits.Copy: the source's copy shares the tolerance dictionary with the original, and aliasing has no meaning for immutable values.
- Real-valued defect positions and `math.floor`. Positions are integer slots, and for integer cut starts flooring changes no window membership.
- numpy float tables. The tables are unbounded integers, which agree with the source while values stay exactly representable.
- Mutation of the roll and the tracker. Both are values threaded through pure functions. The reconstruction `while` loop is a recursive function whose result is already in left-to-right order, which is what reversing the backward list gives.
- Optimisation.OptimizeBiscuitPlacement: requires every biscuit length to be positive, as the biscuit catalog does. For a length of 0 the source still terminates: the end position equals the position, so the entry at the position becomes the larger of itself and itself plus the biscuit's value. One biscuit of length 0 and value 1 on a 2-slot roll gives the table [1, 1, 0] and the total 0. A negative length makes Python's negative indexing write an entry counted from the end of the table.
- PlacementDetails.GetBiscuitPlacementDetails: requires every biscuit length to be positive, as the biscuit catalog does. A fitting length-0 biscuit of positive value records a cut that starts at its own end, and if the walk back reaches that entry, it never leaves it. A negative length writes an entry counted from the end of the table, as above.
- Optimisation.CanPlaceBiscuit: carries no contract of its own. `CanPlaceWindow` states its meaning, because a postcondition on the predicate would be assumed in every proof that mentions it.
- PlacementDetails.Relax: its own contract states only the lengths of the table and the tracker. `RelaxSpec` states the rest, because a postcondition on the function would be assumed in every proof that unfolds it.
- PlacementDetails.Step: its own contract states only the lengths, for the same reason. `ValuesStep` and `TrackStep` state what it keeps.
- PlacementDetails.Sweep: its own contract states only the lengths, for the same reason. `SweepKeeps` states what it keeps.
- PlacementDetails.Tables: its own contract states only the lengths, for the same reason. `TablesCorrect` states what the table and the tracker hold.
- Agreement.CutAgreement: it requires every defect class in the window to appear in the tolerance map, and every cap to be non-negative.
  - For an unknown class, `evaluate_cut` raises `KeyError` while `can_place_biscuit` ignores the class.
  - For a negative cap, `evaluate_cut` never rejects on that class and counts each of its defects, while `can_place_biscuit` rejects every cut that ends inside the roll.
  - `Rolls.EvaluateCut` models both behaviours. The equivalence holds only where they agree.

## Findings

| source | as written | input that shows it | evidently intended | confidence | as-written member | corrected member |
|---|---|---|---|---|---|---|
| optimisation.py:71 | The skip-one-slot update raises `max_values[position + 1]` without touching `placement_tracker[position + 1]`. That entry can keep a cut whose candidate is now below the entry, and the walk back then follows that cut. | Catalog in the order A, B; roll of 3 slots, defect of class `x` at slot 2. Biscuit A: length 3, value 1, tolerates one `x`. Biscuit B: length 2, value 5, tolerates none. Table `0,0,5,5`, tracker entry 3 = A at 0. The result is `[A at 0]`, worth 1, while `[B at 0]` is worth 5. | When the skip update strictly raises an entry, clear that entry's tracker record, so the walk back steps left and the returned placements are worth the optimum. | not executed | PlacementDetails.GetBiscuitPlacementDetails (shown by PlacementDetails.StaleTrackerCounterexample) | PlacementDetails.GetOptimalPlacementDetails (shown by PlacementDetails.StaleTrackerCorrected) |

=== FILE: agreement.dfy ===
/** The two feasibility tests of the system agree: the dough roll's
    `evaluate_cut`, which scans the per-slot defect buckets and spends a
    copy of the tolerance map, accepts a cut inside a fresh roll exactly
    when the optimiser's `can_place_biscuit`, which counts defects per
    class over the raw list, does — as long as every defect in the window
    has a class the biscuit knows and no cap is negative. */
module Agreement {
  import opened Biscuits
  import opened Rolls
  import opened Optimisation

  lemma {:induction false} CountInEmpty(defects: seq<Defect>, c: string, lo: int, hi: int)
    requires hi <= lo
    ensures CountIn(defects, c, lo, hi) == 0
    decreases |defects|
  {
    if defects != [] {
      CountInEmpty(defects[1..], c, lo, hi);
    }
  }

  /** Counting over `[lo, hi)` is counting over `[lo, mid)` and `[mid, hi)`. */
  lemma {:induction false} CountInSplit(defects: seq<Defect>, c: string, lo: int, mid: int, hi: int)
    requires lo <= mid <= hi
    ensures CountIn(defects, c, lo, hi) == CountIn(defects, c, lo, mid) + CountIn(defects, c, mid, hi)
    decreases |defects|
  {
    if defects != [] {
      CountInSplit(defects[1..], c, lo, mid, hi);
    }
  }

  /** The defects of class `c` in the bucket of slot `k` are the defects of
      class `c` at position `k`. */
  lemma {:induction false} SlotCount(defects: seq<Defect>, c: string, k: int)
    ensures CountClass(SlotDefects(defects, k), c) == CountIn(defects, c, k, k + 1)
    decreases |defects|
  {
    if defects != [] {
      var head := if defects[0].position == k then [defects[0]] else [];
      SlotCount(defects[1..], c, k);
      CountClassAppend(head, SlotDefects(defects[1..], k), c);
      assert CountClass(head, c) == (if defects[0].defectClass == c && defects[0].position == k then 1 else 0) by {
        if head != [] {
          assert head[1..] == [];
        }
      }
    }
  }

  /** The buckets of a window hold, per class, as many defects as the raw
      list has in that window. */
  lemma {:induction false} WindowCount(defects: seq<Defect>, c: string, lo: int, hi: int)
    ensures CountClass(WindowDefects(BuildIndex(defects), lo, hi), c) == CountIn(defects, c, lo, hi)
    decreases hi - lo
  {
    var index := BuildIndex(defects);
    if hi <= lo {
      CountInEmpty(defects, c, lo, hi);
    } else {
      WindowCount(defects, c, lo + 1, hi);
      CountClassAppend(DefectsAt(index, lo), WindowDefects(index, lo + 1, hi), c);
      SlotCount(defects, c, lo);
      CountInSplit(defects, c, lo, lo + 1, hi);
    }
  }

  /** For a cut inside a fresh roll, `evaluate_cut` accepts exactly when
      `can_place_biscuit` does, provided every defect in the window has a
      class the biscuit knows and no cap is negative. */
  lemma CutAgreement(length: nat, defects: seq<Defect>, p: int, b: Biscuit)
    requires p + b.size <= length
    requires NonNegativeTolerance(b.tolerance)
    requires KnownClasses(Window(NewRoll(length, defects), p, b), b.tolerance)
    ensures EvaluateCut(NewRoll(length, defects), p, b).Ok?
    ensures CanPlaceBiscuit(b, p, defects, length) <==> EvaluateCut(NewRoll(length, defects), p, b) != Ok(Rejected)
  {
    var window := Window(NewRoll(length, defects), p, b);
    assert CanPlaceBiscuit(b, p, defects, length) <==> !Exceeds(window, b.tolerance) by {
      FreshWindow(length, defects, p, b);
      WindowCounts(defects, p, p + b.size, b.tolerance);
      SameCounts(b, p, defects, length, window);
    }
  }

  /** The window of a fresh roll reads the buckets built from the defect list. */
  lemma FreshWindow(length: nat, defects: seq<Defect>, p: int, b: Biscuit)
    ensures Window(NewRoll(length, defects), p, b) == WindowDefects(BuildIndex(defects), p, p + b.size)
  {
  }

  /** The buckets of a window count every class of a tolerance map as the
      raw defect list does over that window. */
  lemma WindowCounts(defects: seq<Defect>, lo: int, hi: int, tolerance: map<string, int>)
    ensures forall c | c in tolerance :: CountClass(WindowDefects(BuildIndex(defects), lo, hi), c) == CountIn(defects, c, lo, hi)
  {
    forall c | c in tolerance
      ensures CountClass(WindowDefects(BuildIndex(defects), lo, hi), c) == CountIn(defects, c, lo, hi)
    {
      WindowCount(defects, c, lo, hi);
    }
  }

  /** A list with the same per-class counts as the cut's window passes the
      threshold test exactly when `can_place_biscuit` does. */
  lemma SameCounts(b: Biscuit, p: int, defects: seq<Defect>, length: int, window: seq<Defect>)
    requires p + b.size <= length
    requires forall c | c in b.tolerance :: CountClass(window, c) == CountIn(defects, c, p, p + b.size)
    ensures CanPlaceBiscuit(b, p, defects, length) <==> !Exceeds(window, b.tolerance)
  {
  }
}

=== FILE: biscuits.dfy ===
/** The data model shared by the dough roll and the placement optimiser:
    biscuit types, point defects, and declarative per-class defect counts
    over a window of slots. */
module Biscuits {

  /** A biscuit type: a name, a length in slots, a value and, per defect
      class, the number of defects of that class the biscuit tolerates. */
  datatype Biscuit = Biscuit(biscuitType: string, size: int, value: int, tolerance: map<string, int>)

  /** A point defect. Positions are integer slots: for an integer window
      start p, `p <= x < p + n` holds exactly when `p <= floor(x) < p + n`,
      so flooring a real position loses nothing. */
  datatype Defect = Defect(position: int, defectClass: string)

  /** A biscuit copy is a biscuit with the same four fields. */
  function Copy(b: Biscuit): (r: Biscuit)
    ensures r == b
  {
    Biscuit(b.biscuitType, b.size, b.value, b.tolerance)
  }

  /** Number of defects of class `c` whose position lies in `[lo, hi)`,
      counted with multiplicity over the defect list. */
  function CountIn(defects: seq<Defect>, c: string, lo: int, hi: int): nat
  {
    if defects == [] then 0
    else
      var d := defects[0];
      (if d.defectClass == c && lo <= d.position < hi then 1 else 0) + CountIn(defects[1..], c, lo, hi)
  }

  /** Number of defects of class `c` in a list, wherever they are. */
  function CountClass(defects: seq<Defect>, c: string): nat
  {
    if defects == [] then 0
    else (if defects[0].defectClass == c then 1 else 0) + CountClass(defects[1..], c)
  }

  /** The defects whose position lies in `[lo, hi)`, in list order. */
  function InWindow(defects: seq<Defect>, lo: int, hi: int): (r: seq<Defect>)
    ensures |r| <= |defects|
    ensures forall j | 0 <= j < |r| :: lo <= r[j].position < hi
  {
    if defects == [] then []
    else (if lo <= defects[0].position < hi then [defects[0]] else []) + InWindow(defects[1..], lo, hi)
  }

  /** Counting a class inside the window is counting it in the filtered list. */
  lemma {:induction false} CountInWindow(defects: seq<Defect>, lo: int, hi: int)
    ensures forall c :: CountClass(InWindow(defects, lo, hi), c) == CountIn(defects, c, lo, hi)
  {
    if defects != [] {
      var head := if lo <= defects[0].position < hi then [defects[0]] else [];
      CountInWindow(defects[1..], lo, hi);
      forall c ensures CountClass(InWindow(defects, lo, hi), c) == CountIn(defects, c, lo, hi) {
        CountClassAppend(head, InWindow(defects[1..], lo, hi), c);
      }
    }
  }

  /** Every class in the tolerance map has a non-negative cap. */
  predicate NonNegativeTolerance(tolerance: map<string, int>)
  {
    forall c | c in tolerance :: tolerance[c] >= 0
  }

  /** Every defect in the list has a class the tolerance map knows. */
  predicate KnownClasses(defects: seq<Defect>, tolerance: map<string, int>)
  {
    forall j | 0 <= j < |defects| :: defects[j].defectClass in tolerance
  }

  /** Some class occurs in the list more often than its cap allows. */
  predicate Exceeds(defects: seq<Defect>, tolerance: map<string, int>)
  {
    exists c | c in tolerance :: CountClass(defects, c) > tolerance[c]
  }

  lemma CountClassAppend(a: seq<Defect>, b: seq<Defect>, c: string)
    ensures CountClass(a + b, c) == CountClass(a, c) + CountClass(b, c)
  {
    if a == [] {
      assert a + b == b;
    } else {
      assert (a + b)[1..] == a[1..] + b;
      CountClassAppend(a[1..], b, c);
    }
  }
}

=== FILE: optimisation.dfy ===
/** The optimal-value dynamic program of `optimisation.py`: the declarative
    placement check, what a plan of cuts is, what the optimum over plans
    is, and `optimize_biscuit_placement` as an array sweep proved to fill
    every entry with that optimum. */
module Optimisation {
  import opened Biscuits

  /** `can_place_biscuit`: the cut ends inside the roll, and for every class
      listed in the biscuit's thresholds the defects of that class in
      `[position, position + size)` stay within the threshold. Classes
      absent from the thresholds are not checked. */
  predicate CanPlaceBiscuit(b: Biscuit, position: int, defects: seq<Defect>, doughLength: int)
  {
    && position + b.size <= doughLength
    && forall c | c in b.tolerance :: CountIn(defects, c, position, position + b.size) <= b.tolerance[c]
  }

  /** `can_place_biscuit` in terms of the defects under the cut: it holds
      exactly when the cut ends inside the roll and no class in the
      thresholds occurs under the cut more often than its threshold. */
  lemma CanPlaceWindow(b: Biscuit, position: int, defects: seq<Defect>, doughLength: int)
    ensures CanPlaceBiscuit(b, position, defects, doughLength) <==>
              position + b.size <= doughLength && !Exceeds(InWindow(defects, position, position + b.size), b.tolerance)
  {
    CountInWindow(defects, position, position + b.size);
  }

  /** A problem instance: the catalog in iteration order, the roll length
      and the defect list. */
  datatype Instance = Instance(catalog: seq<Biscuit>, length: nat, defects: seq<Defect>)

  /** A cut of catalog entry `kind` starting at slot `start`. */
  datatype Cut = Cut(kind: nat, start: int)

  predicate PositiveLengths(catalog: seq<Biscuit>)
  {
    forall i | 0 <= i < |catalog| :: catalog[i].size > 0
  }

  function End(inst: Instance, c: Cut): int
    requires c.kind < |inst.catalog|
  {
    c.start + inst.catalog[c.kind].size
  }

  /** Catalog entry `kind` passes `can_place_biscuit` at `start`. */
  predicate Fits(inst: Instance, kind: nat, start: int)
    requires kind < |inst.catalog|
  {
    CanPlaceBiscuit(inst.catalog[kind], start, inst.defects, inst.length)
  }

  /** A cut that passes `can_place_biscuit` and lies inside `[lo, hi)`. */
  predicate LegalCut(inst: Instance, c: Cut, lo: nat, hi: int)
  {
    && c.kind < |inst.catalog|
    && lo <= c.start
    && End(inst, c) <= hi
    && Fits(inst, c.kind, c.start)
  }

  /** A plan inside `[lo, hi)`: legal cuts in left-to-right order, each
      ending before the next begins. */
  ghost predicate ValidPlan(inst: Instance, plan: seq<Cut>, lo: nat, hi: int)
  {
    && (forall j | 0 <= j < |plan| :: LegalCut(inst, plan[j], lo, hi))
    && (forall j, k | 0 <= j < k < |plan| :: End(inst, plan[j]) <= plan[k].start)
  }

  predicate KnownKinds(inst: Instance, plan: seq<Cut>)
  {
    forall j | 0 <= j < |plan| :: plan[j].kind < |inst.catalog|
  }

  /** Total value of the biscuits a plan cuts. */
  function PlanValue(inst: Instance, plan: seq<Cut>): int
    requires KnownKinds(inst, plan)
  {
    if plan == [] then 0
    else PlanValue(inst, plan[..|plan| - 1]) + inst.catalog[plan[|plan| - 1].kind].value
  }

  lemma PlanValueSnoc(inst: Instance, plan: seq<Cut>, c: Cut)
    requires KnownKinds(inst, plan) && c.kind < |inst.catalog|
    ensures KnownKinds(inst, plan + [c])
    ensures PlanValue(inst, plan + [c]) == PlanValue(inst, plan) + inst.catalog[c.kind].value
  {
    assert (plan + [c])[..|plan|] == plan;
  }

  /** `v` is the best total value of a plan inside `[0, k)`: no plan beats
      it and some plan reaches it. */
  ghost predicate IsOptimum(inst: Instance, v: int, k: nat)
  {
    && (forall plan | ValidPlan(inst, plan, 0, k) :: PlanValue(inst, plan) <= v)
    && (exists plan :: ValidPlan(inst, plan, 0, k) && PlanValue(inst, plan) == v)
  }

  /** Entry `k` of the table is the optimum for the prefix `[0, k)`. */
  ghost predicate OptimumAt(inst: Instance, values: seq<int>, k: nat)
    requires k < |values|
  {
    IsOptimum(inst, values[k], k)
  }

  /** Every entry of the table is the optimum for its prefix. */
  ghost predicate OptimalTable(inst: Instance, values: seq<int>)
  {
    && |values| == inst.length + 1
    && forall k | 0 <= k <= inst.length :: OptimumAt(inst, values, k)
  }

  /** The optimum is unique, so two optimal tables are the same table. */
  lemma OptimalTableUnique(inst: Instance, a: seq<int>, b: seq<int>)
    requires OptimalTable(inst, a) && OptimalTable(inst, b)
    ensures a == b
  {
    forall k | 0 <= k <= inst.length
      ensures a[k] == b[k]
    {
      assert OptimumAt(inst, a, k) && OptimumAt(inst, b, k);
      var pa :| ValidPlan(inst, pa, 0, k) && PlanValue(inst, pa) == a[k];
      var pb :| ValidPlan(inst, pb, 0, k) && PlanValue(inst, pb) == b[k];
      assert PlanValue(inst, pa) <= b[k] && PlanValue(inst, pb) <= a[k];
    }
  }

  /** Placing catalog entry `i` at `q` cannot beat the table: the entry at
      the cut's end is at least the entry at its start plus its value. */
  ghost predicate RelaxedCut(inst: Instance, values: seq<int>, i: nat, q: int)
    requires |values| == inst.length + 1 && i < |inst.catalog|
  {
    var size := inst.catalog[i].size;
    0 <= q < q + size <= inst.length && Fits(inst, i, q) ==>
      values[q] + inst.catalog[i].value <= values[q + size]
  }

  /** Every cut of catalog entry `i` at `q`, with `q` before `position` or
      at `position` with `i` before `upto`, has been relaxed. */
  ghost predicate Relaxed(inst: Instance, values: seq<int>, position: int, upto: int)
    requires |values| == inst.length + 1
  {
    forall i, q | 0 <= i < |inst.catalog| && q <= position && (q < position || i < upto) ::
      RelaxedCut(inst, values, i, q)
  }

  /** The table does not decrease from `j - 1` to `j`. */
  ghost predicate StepUp(values: seq<int>, j: int)
    requires 0 < j < |values|
  {
    values[j - 1] <= values[j]
  }

  /** The table is non-decreasing on `[0, k]`. */
  ghost predicate MonotoneUpTo(values: seq<int>, k: int)
    requires k < |values|
  {
    forall j | 0 < j <= k :: StepUp(values, j)
  }

  lemma {:induction false} MonotoneChain(values: seq<int>, j: nat, k: nat)
    requires j <= k < |values| && MonotoneUpTo(values, k)
    ensures values[j] <= values[k]
    decreases k - j
  {
    if j < k {
      assert StepUp(values, j + 1);
      MonotoneChain(values, j + 1, k);
    }
  }

  /** A table that starts at a non-negative value, never decreases, and is
      relaxed for every cut bounds every plan. */
  lemma {:induction false} UpperBound(inst: Instance, values: seq<int>, plan: seq<Cut>, hi: nat)
    requires PositiveLengths(inst.catalog)
    requires |values| == inst.length + 1 && hi <= inst.length
    requires values[0] >= 0 && MonotoneUpTo(values, inst.length)
    requires Relaxed(inst, values, inst.length, 0)
    requires ValidPlan(inst, plan, 0, hi)
    ensures PlanValue(inst, plan) <= values[hi]
    decreases |plan|
  {
    if plan == [] {
      MonotoneChain(values, 0, hi);
    } else {
      var last := plan[|plan| - 1];
      var prefix := plan[..|plan| - 1];
      assert LegalCut(inst, last, 0, hi);
      assert ValidPlan(inst, prefix, 0, last.start) by {
        forall j | 0 <= j < |prefix|
          ensures LegalCut(inst, prefix[j], 0, last.start)
        {
          assert prefix[j] == plan[j];
          assert End(inst, plan[j]) <= plan[|plan| - 1].start;
        }
        forall j, k | 0 <= j < k < |prefix|
          ensures End(inst, prefix[j]) <= prefix[k].start
        {
          assert prefix[j] == plan[j] && prefix[k] == plan[k];
        }
      }
      UpperBound(inst, values, prefix, last.start);
      assert values[last.start] + inst.catalog[last.kind].value <= values[End(inst, last)] by {
        assert RelaxedCut(inst, values, last.kind, last.start);
      }
      MonotoneChain(values, End(inst, last), hi);
    }
  }

  /** Appending a legal cut that starts where a plan's window ends. */
  lemma ExtendPlan(inst: Instance, plan: seq<Cut>, c: Cut)
    requires PositiveLengths(inst.catalog) && c.kind < |inst.catalog|
    requires ValidPlan(inst, plan, 0, c.start)
    requires LegalCut(inst, c, 0, End(inst, c))
    ensures ValidPlan(inst, plan + [c], 0, End(inst, c))
    ensures PlanValue(inst, plan + [c]) == PlanValue(inst, plan) + inst.catalog[c.kind].value
  {
    var p := plan + [c];
    assert p[..|p| - 1] == plan;
    forall j | 0 <= j < |p|
      ensures LegalCut(inst, p[j], 0, End(inst, c))
    {
      if j < |plan| {
        assert p[j] == plan[j];
      }
    }
    forall j, k | 0 <= j < k < |p|
      ensures End(inst, p[j]) <= p[k].start
    {
      assert p[j] == plan[j];
      if k < |plan| {
        assert p[k] == plan[k];
      }
    }
  }

  /** A plan inside `[0, k)` is also a plan inside `[0, k')` for `k <= k'`. */
  lemma WidenPlan(inst: Instance, plan: seq<Cut>, k: nat, k': nat)
    requires ValidPlan(inst, plan, 0, k) && k <= k'
    ensures ValidPlan(inst, plan, 0, k')
  {
  }

  /** The first cut of a plan inside `[0, k)` is at most `k` long. */
  lemma FirstCutWithin(inst: Instance, plan: seq<Cut>, k: nat)
    requires ValidPlan(inst, plan, 0, k) && |plan| > 0
    ensures inst.catalog[plan[0].kind].size <= k
  {
    assert LegalCut(inst, plan[0], 0, k);
  }

  /** When no biscuit fits inside `[0, k)`, the only plan is the empty one. */
  lemma NothingFits(inst: Instance, plan: seq<Cut>, k: nat)
    requires forall i | 0 <= i < |inst.catalog| :: inst.catalog[i].size > k
    requires ValidPlan(inst, plan, 0, k)
    ensures plan == []
  {
    if plan != [] {
      FirstCutWithin(inst, plan, k);
      assert false;
    }
  }

  /** Raising table entries after `position` keeps every relaxed cut relaxed. */
  lemma RelaxedRaise(inst: Instance, values: seq<int>, values': seq<int>, position: int, upto: int)
    requires |values| == |values'| == inst.length + 1
    requires Relaxed(inst, values, position, upto)
    requires forall j | 0 <= j <= position && j < |values| :: values'[j] == values[j]
    requires forall j | 0 <= j < |values| :: values[j] <= values'[j]
    ensures Relaxed(inst, values', position, upto)
  {
    forall i, q | 0 <= i < |inst.catalog| && q <= position && (q < position || i < upto)
      ensures RelaxedCut(inst, values', i, q)
    {
      assert RelaxedCut(inst, values, i, q);
    }
  }

  /** Relaxing catalog entry `upto` at `position` extends the relaxed set. */
  lemma RelaxedStep(inst: Instance, values: seq<int>, position: nat, upto: nat)
    requires |values| == inst.length + 1 && upto < |inst.catalog|
    requires Relaxed(inst, values, position, upto)
    requires var size := inst.catalog[upto].size;
             position < position + size <= inst.length && Fits(inst, upto, position) ==>
               values[position] + inst.catalog[upto].value <= values[position + size]
    ensures Relaxed(inst, values, position, upto + 1)
  {
  }

  /** `best[j]` is a plan inside `[0, j)` worth exactly `values[j]`. */
  ghost predicate WitnessAt(inst: Instance, best: seq<seq<Cut>>, values: seq<int>, j: nat)
    requires j < |best| && j < |values|
  {
    ValidPlan(inst, best[j], 0, j) && PlanValue(inst, best[j]) == values[j]
  }

  /** Every entry of the table is witnessed by its plan. */
  ghost predicate Witnessed(inst: Instance, best: seq<seq<Cut>>, values: seq<int>)
  {
    && |best| == |values| == inst.length + 1
    && forall j | 0 <= j <= inst.length :: WitnessAt(inst, best, values, j)
  }

  lemma WitnessUpdate(inst: Instance, best: seq<seq<Cut>>, values: seq<int>, e: nat, plan: seq<Cut>, v: int)
    requires Witnessed(inst, best, values) && e <= inst.length
    requires ValidPlan(inst, plan, 0, e) && PlanValue(inst, plan) == v
    ensures Witnessed(inst, best[e := plan], values[e := v])
  {
    var best', values' := best[e := plan], values[e := v];
    forall j | 0 <= j <= inst.length
      ensures WitnessAt(inst, best', values', j)
    {
      if j != e {
        assert WitnessAt(inst, best, values, j);
      }
    }
  }

  /** A witnessed, non-decreasing, fully relaxed table starting at 0 holds
      the optimum in every entry. */
  lemma TableOptimal(inst: Instance, best: seq<seq<Cut>>, values: seq<int>)
    requires PositiveLengths(inst.catalog)
    requires Witnessed(inst, best, values) && values[0] == 0
    requires MonotoneUpTo(values, inst.length)
    requires Relaxed(inst, values, inst.length, 0)
    ensures OptimalTable(inst, values)
  {
    forall k | 0 <= k <= inst.length
      ensures OptimumAt(inst, values, k)
    {
      forall plan | ValidPlan(inst, plan, 0, k)
        ensures PlanValue(inst, plan) <= values[k]
      {
        UpperBound(inst, values, plan, k);
      }
      assert WitnessAt(inst, best, values, k);
    }
  }

  /** The skip and placement transitions at `position` leave the table
      non-decreasing one slot further. */
  lemma MonotoneExtend(values: seq<int>, next: seq<int>, position: nat)
    requires position + 1 < |values| == |next|
    requires MonotoneUpTo(values, position)
    requires forall j | 0 <= j <= position :: next[j] == values[j]
    requires values[position] <= next[position + 1]
    ensures MonotoneUpTo(next, position + 1)
  {
    forall j | 0 < j <= position + 1
      ensures StepUp(next, j)
    {
      if j <= position {
        assert StepUp(values, j);
      }
    }
  }

  function Max(a: int, b: int): int
  {
    if a >= b then a else b
  }

  /** What the inner loop at `position` keeps after trying the first `i`
      catalog entries, starting from the table `values`: every entry is
      witnessed, entries up to `position` are untouched, no entry went
      down, and every cut tried so far is relaxed. */
  ghost predicate RelaxLoopInv(inst: Instance, position: nat, i: nat, values: seq<int>,
                               maxValues: seq<int>, best: seq<seq<Cut>>)
  {
    && position < inst.length
    && |values| == inst.length + 1
    && Witnessed(inst, best, maxValues)
    && (forall j | 0 <= j <= position :: maxValues[j] == values[j])
    && (forall j | 0 <= j <= inst.length :: values[j] <= maxValues[j])
    && Relaxed(inst, maxValues, position, i)
  }

  /** The table after trying catalog entry `i` at `position`: the entry at
      the cut's end is raised to the candidate when the cut fits. */
  function TryCut(inst: Instance, position: nat, i: nat, maxValues: seq<int>): seq<int>
    requires i < |inst.catalog| && position < |maxValues|
  {
    var e := position + inst.catalog[i].size;
    if Fits(inst, i, position) && 0 <= e < |maxValues|
    then maxValues[e := Max(maxValues[e], maxValues[position] + inst.catalog[i].value)]
    else maxValues
  }

  /** The witnesses after trying catalog entry `i` at `position`: a cut
      that strictly improves its end entry extends the plan at `position`. */
  function TryCutPlans(inst: Instance, position: nat, i: nat, maxValues: seq<int>, best: seq<seq<Cut>>): seq<seq<Cut>>
    requires i < |inst.catalog| && position < |maxValues| && |best| == |maxValues|
  {
    var e := position + inst.catalog[i].size;
    if Fits(inst, i, position) && 0 <= e < |maxValues| && maxValues[position] + inst.catalog[i].value > maxValues[e]
    then best[e := best[position] + [Cut(i, position)]]
    else best
  }

  /** Trying a cut keeps every entry witnessed. */
  lemma TryCutWitnessed(inst: Instance, position: nat, i: nat, maxValues: seq<int>, best: seq<seq<Cut>>)
    requires PositiveLengths(inst.catalog) && i < |inst.catalog| && position < inst.length
    requires Witnessed(inst, best, maxValues)
    ensures Witnessed(inst, TryCutPlans(inst, position, i, maxValues, best), TryCut(inst, position, i, maxValues))
  {
    var e := position + inst.catalog[i].size;
    var newValue := maxValues[position] + inst.catalog[i].value;
    if Fits(inst, i, position) && e <= inst.length && newValue > maxValues[e] {
      var plan := best[position] + [Cut(i, position)];
      assert Max(maxValues[e], newValue) == newValue;
      assert TryCut(inst, position, i, maxValues) == maxValues[e := newValue];
      assert TryCutPlans(inst, position, i, maxValues, best) == best[e := plan];
      assert Witnessed(inst, best[e := plan], maxValues[e := newValue]) by {
        assert WitnessAt(inst, best, maxValues, position);
        ExtendPlan(inst, best[position], Cut(i, position));
        WitnessUpdate(inst, best, maxValues, e, plan, newValue);
      }
    } else {
      assert TryCut(inst, position, i, maxValues) == maxValues;
      assert TryCutPlans(inst, position, i, maxValues, best) == best;
    }
  }

  /** Trying a cut leaves the entries up to `position` alone, lowers no
      entry, and relaxes that cut. */
  lemma TryCutRelaxes(inst: Instance, position: nat, i: nat, values: seq<int>, maxValues: seq<int>)
    requires PositiveLengths(inst.catalog) && i < |inst.catalog| && position < inst.length
    requires |values| == |maxValues| == inst.length + 1
    requires forall j | 0 <= j <= position :: maxValues[j] == values[j]
    requires forall j | 0 <= j <= inst.length :: values[j] <= maxValues[j]
    requires Relaxed(inst, maxValues, position, i)
    ensures forall j | 0 <= j <= position :: TryCut(inst, position, i, maxValues)[j] == values[j]
    ensures forall j | 0 <= j <= inst.length :: values[j] <= TryCut(inst, position, i, maxValues)[j]
    ensures Relaxed(inst, TryCut(inst, position, i, maxValues), position, i + 1)
  {
    var next := TryCut(inst, position, i, maxValues);
    var e := position + inst.catalog[i].size;
    if Fits(inst, i, position) && position < e <= inst.length {
      assert next == maxValues[e := Max(maxValues[e], maxValues[position] + inst.catalog[i].value)];
      assert next[position] == maxValues[position];
    }
    RelaxedRaise(inst, maxValues, next, position, i);
    RelaxedStep(inst, next, position, i);
  }

  /** One iteration of the inner loop, trying catalog entry `i` at
      `position`, keeps the loop invariant. */
  lemma RelaxLoopStep(inst: Instance, position: nat, i: nat, values: seq<int>, maxValues: seq<int>, best: seq<seq<Cut>>)
    requires PositiveLengths(inst.catalog) && i < |inst.catalog|
    requires RelaxLoopInv(inst, position, i, values, maxValues, best)
    ensures RelaxLoopInv(inst, position, i + 1, values, TryCut(inst, position, i, maxValues),
                         TryCutPlans(inst, position, i, maxValues, best))
  {
    TryCutWitnessed(inst, position, i, maxValues, best);
    TryCutRelaxes(inst, position, i, values, maxValues);
  }

  /** The inner loop of `optimize_biscuit_placement` at one position: each
      catalog entry that fits there raises the entry at its end to at
      least the entry at `position` plus its value. Only entries after
      `position` change. */
  method RelaxFrom(catalog: seq<Biscuit>, doughLength: nat, defects: seq<Defect>, position: nat,
                   values: seq<int>, ghost best: seq<seq<Cut>>)
    returns (maxValues: seq<int>, ghost best': seq<seq<Cut>>)
    requires PositiveLengths(catalog) && position < doughLength
    requires Witnessed(Instance(catalog, doughLength, defects), best, values)
    requires Relaxed(Instance(catalog, doughLength, defects), values, position, 0)
    ensures Witnessed(Instance(catalog, doughLength, defects), best', maxValues)
    ensures forall j | 0 <= j <= position :: maxValues[j] == values[j]
    ensures forall j | 0 <= j <= doughLength :: values[j] <= maxValues[j]
    ensures Relaxed(Instance(catalog, doughLength, defects), maxValues, position + 1, 0)
  {
    ghost var inst := Instance(catalog, doughLength, defects);
    maxValues, best' := values, best;
    var i := 0;
    while i < |catalog|
      invariant 0 <= i <= |catalog|
      invariant RelaxLoopInv(inst, position, i, values, maxValues, best')
    {
      ghost var previous, previousBest := maxValues, best';
      var b := catalog[i];
      if CanPlaceBiscuit(b, position, defects, doughLength) {
        var endPosition := position + b.size;
        if endPosition <= doughLength {
          var newValue := maxValues[position] + b.value;
          if newValue > maxValues[endPosition] {
            best' := best'[endPosition := best'[position] + [Cut(i, position)]];
          }
          maxValues := maxValues[endPosition := Max(maxValues[endPosition], newValue)];
        }
      }
      RelaxLoopStep(inst, position, i, values, previous, previousBest);
      assert maxValues == TryCut(inst, position, i, previous);
      assert best' == TryCutPlans(inst, position, i, previous, previousBest);
      i := i + 1;
    }
  }

  /** `optimize_biscuit_placement`: the forward sweep with the "skip one
      slot" transition and, per catalog entry that fits, the "place a
      biscuit ending at position + size" transition. Every entry of the
      table ends up as the optimum for its prefix of the roll. */
  method OptimizeBiscuitPlacement(catalog: seq<Biscuit>, doughLength: nat, defects: seq<Defect>)
    returns (total: int, maxValues: seq<int>)
    requires PositiveLengths(catalog)
    ensures |maxValues| == doughLength + 1 && total == maxValues[doughLength]
    ensures maxValues[0] == 0
    ensures forall k | 0 < k <= doughLength :: maxValues[k - 1] <= maxValues[k]
    ensures OptimalTable(Instance(catalog, doughLength, defects), maxValues)
    ensures (forall i | 0 <= i < |catalog| :: catalog[i].size > doughLength) ==> total == 0
  {
    ghost var inst := Instance(catalog, doughLength, defects);
    maxValues := seq(doughLength + 1, _ => 0);
    // best[j] is a plan inside [0, j) worth maxValues[j]
    ghost var best: seq<seq<Cut>> := seq(doughLength + 1, _ => []);
    var position := 0;
    while position < doughLength
      invariant 0 <= position <= doughLength
      invariant Witnessed(inst, best, maxValues)
      invariant maxValues[0] == 0
      invariant MonotoneUpTo(maxValues, position)
      invariant Relaxed(inst, maxValues, position, 0)
    {
      if maxValues[position] > maxValues[position + 1] {
        assert WitnessAt(inst, best, maxValues, position);
        WidenPlan(inst, best[position], position, position + 1);
        WitnessUpdate(inst, best, maxValues, position + 1, best[position], maxValues[position]);
        best := best[position + 1 := best[position]];
      } else {
        assert maxValues[position + 1 := Max(maxValues[position + 1], maxValues[position])] == maxValues;
      }
      ghost var previous := maxValues;
      maxValues := maxValues[position + 1 := Max(maxValues[position + 1], maxValues[position])];
      RelaxedRaise(inst, previous, maxValues, position, 0);
      ghost var skipped := maxValues;
      maxValues, best := RelaxFrom(catalog, doughLength, defects, position, maxValues, best);
      MonotoneExtend(previous, maxValues, position);
      position := position + 1;
    }
    total := maxValues[doughLength];
    forall k | 0 < k <= doughLength
      ensures maxValues[k - 1] <= maxValues[k]
    {
      assert StepUp(maxValues, k);
    }
    TableOptimal(inst, best, maxValues);
    if forall i | 0 <= i < |catalog| :: catalog[i].size > doughLength {
      assert WitnessAt(inst, best, maxValues, doughLength);
      NothingFits(inst, best[doughLength], doughLength);
    }
  }
}

=== FILE: placement_details.dfy ===
/** `get_biscuit_placement_details` of `optimisation.py`: the same sweep as
    `optimize_biscuit_placement`, written with a strict improvement test so
    that it can record in a tracker which cut produced each table entry,
    followed by a backward walk over the tracker. Also the corrected sweep
    that forgets a tracked cut once the "skip one slot" transition beats it. */
module PlacementDetails {
  import opened Biscuits
  import opened Optimisation

  /** A tracker entry: no cut recorded, or the cut that last strictly
      improved the table entry. */
  datatype Track = Empty | Chosen(cut: Cut)

  // ---------------------------------------------------------------------
  // The sweep
  // ---------------------------------------------------------------------

  /** Catalog entry `kind` may be cut at `position` and ends at `j`. */
  predicate EndsAt(inst: Instance, kind: nat, position: int, j: int)
    requires kind < |inst.catalog|
  {
    End(inst, Cut(kind, position)) == j && Fits(inst, kind, position)
  }

  /** Entry `j` was last written by the inner loop at `position`, started
      at catalog entry `i`: the recorded cut starts at `position`, ends at
      `j`, fits, and its candidate strictly beat the entry as it was before
      the loop and every candidate for `j` tried before it in the loop. */
  ghost predicate Improved(inst: Instance, values: seq<int>, values': seq<int>, tracker': seq<Track>,
                           position: nat, i: nat, j: nat)
    requires |values| == |values'| == |tracker'| == inst.length + 1
    requires position <= inst.length && j <= inst.length
  {
    && tracker'[j].Chosen?
    && var c := tracker'[j].cut;
    && i <= c.kind < |inst.catalog|
    && c.start == position
    && EndsAt(inst, c.kind, position, j)
    && values'[j] == values[position] + inst.catalog[c.kind].value
    && values[j] < values'[j]
    && forall k | i <= k < c.kind && EndsAt(inst, k, position, j) ::
         values[position] + inst.catalog[k].value < values'[j]
  }

  /** The inner loop at `position` from catalog entry `i` on (optimisation.py lines
      73-80): a fitting cut whose candidate `values[position] + value`
      strictly beats the entry at its end overwrites that entry and
      records itself in the tracker. `RelaxSpec` states what it does. */
  function Relax(inst: Instance, position: nat, i: nat, values: seq<int>, tracker: seq<Track>)
    : (r: (seq<int>, seq<Track>))
    requires PositiveLengths(inst.catalog)
    requires position <= inst.length && i <= |inst.catalog|
    requires |values| == |tracker| == inst.length + 1
    ensures |r.0| == |r.1| == inst.length + 1
    decreases |inst.catalog| - i
  {
    if i == |inst.catalog| then (values, tracker)
    else
      var b := inst.catalog[i];
      if CanPlaceBiscuit(b, position, inst.defects, inst.length) && position + b.size <= inst.length then
        var endPosition := position + b.size;
        var newValue := values[position] + b.value;
        if newValue > values[endPosition] then
          Relax(inst, position, i + 1, values[endPosition := newValue], tracker[endPosition := Chosen(Cut(i, position))])
        else
          Relax(inst, position, i + 1, values, tracker)
      else
        Relax(inst, position, i + 1, values, tracker)
  }

  /** What the inner loop from catalog entry `i` on does, taking the table
      and tracker from `values`, `tracker` to `r`: the entries up to
      `position` stay, entries only rise, every cut at `position` from
      entry `i` on is relaxed, and every entry that changes records the
      earliest cut with the largest candidate for that entry, that is, the
      last strict improvement. */
  ghost predicate RelaxPost(inst: Instance, position: nat, i: nat, values: seq<int>, tracker: seq<Track>,
                            r: (seq<int>, seq<Track>))
    requires position <= inst.length
    requires |values| == |tracker| == |r.0| == |r.1| == inst.length + 1
  {
    && (forall j | 0 <= j <= position :: r.0[j] == values[j] && r.1[j] == tracker[j])
    && (forall j | 0 <= j <= inst.length :: values[j] <= r.0[j])
    && (forall k | i <= k < |inst.catalog| :: RelaxedCut(inst, r.0, k, position))
    && (forall j | 0 <= j <= inst.length && (r.0[j] != values[j] || r.1[j] != tracker[j]) ::
          Improved(inst, values, r.0, r.1, position, i, j))
  }

  /** `Relax` does what `RelaxPost` describes. */
  lemma {:induction false} RelaxSpec(inst: Instance, position: nat, i: nat, values: seq<int>, tracker: seq<Track>)
    requires PositiveLengths(inst.catalog)
    requires position <= inst.length && i <= |inst.catalog|
    requires |values| == |tracker| == inst.length + 1
    ensures RelaxPost(inst, position, i, values, tracker, Relax(inst, position, i, values, tracker))
    decreases |inst.catalog| - i, 1
  {
    if i < |inst.catalog| {
      var b := inst.catalog[i];
      if CanPlaceBiscuit(b, position, inst.defects, inst.length) && position + b.size <= inst.length
         && values[position] + b.value > values[position + b.size] {
        RelaxSpecWrites(inst, position, i, values, tracker);
      } else {
        RelaxSpecSkips(inst, position, i, values, tracker);
      }
    } else {
      assert Relax(inst, position, i, values, tracker) == (values, tracker);
    }
  }

  /** `RelaxSpec` at `i` when entry `i` writes the table. */
  lemma {:induction false} RelaxSpecWrites(inst: Instance, position: nat, i: nat, values: seq<int>, tracker: seq<Track>)
    requires PositiveLengths(inst.catalog)
    requires position <= inst.length && i < |inst.catalog|
    requires |values| == |tracker| == inst.length + 1
    requires var b := inst.catalog[i];
             && CanPlaceBiscuit(b, position, inst.defects, inst.length) && position + b.size <= inst.length
             && values[position] + b.value > values[position + b.size]
    ensures RelaxPost(inst, position, i, values, tracker, Relax(inst, position, i, values, tracker))
    decreases |inst.catalog| - i, 0
  {
    var b := inst.catalog[i];
    var endPosition := position + b.size;
    var values' := values[endPosition := values[position] + b.value];
    var tracker' := tracker[endPosition := Chosen(Cut(i, position))];
    assert Relax(inst, position, i, values, tracker) == Relax(inst, position, i + 1, values', tracker');
    RelaxSpec(inst, position, i + 1, values', tracker');
    RelaxImproves(inst, position, i, values, tracker, values', tracker', Relax(inst, position, i + 1, values', tracker'));
  }

  /** `RelaxSpec` at `i` when entry `i` leaves the table alone. */
  lemma {:induction false} RelaxSpecSkips(inst: Instance, position: nat, i: nat, values: seq<int>, tracker: seq<Track>)
    requires PositiveLengths(inst.catalog)
    requires position <= inst.length && i < |inst.catalog|
    requires |values| == |tracker| == inst.length + 1
    requires var b := inst.catalog[i];
             !(&& CanPlaceBiscuit(b, position, inst.defects, inst.length) && position + b.size <= inst.length
               && values[position] + b.value > values[position + b.size])
    ensures RelaxPost(inst, position, i, values, tracker, Relax(inst, position, i, values, tracker))
    decreases |inst.catalog| - i, 0
  {
    assert Relax(inst, position, i, values, tracker) == Relax(inst, position, i + 1, values, tracker);
    RelaxSpec(inst, position, i + 1, values, tracker);
    RelaxSkips(inst, position, i, values, tracker, Relax(inst, position, i + 1, values, tracker));
  }

  /** `RelaxPost` at `i` when entry `i` writes the table. */
  lemma RelaxImproves(inst: Instance, position: nat, i: nat, values: seq<int>, tracker: seq<Track>,
                      values': seq<int>, tracker': seq<Track>, r: (seq<int>, seq<Track>))
    requires PositiveLengths(inst.catalog)
    requires position <= inst.length && i < |inst.catalog|
    requires |values| == |tracker| == inst.length + 1
    requires EndsAt(inst, i, position, position + inst.catalog[i].size)
    requires position + inst.catalog[i].size <= inst.length
    requires values[position] + inst.catalog[i].value > values[position + inst.catalog[i].size]
    requires values' == values[position + inst.catalog[i].size := values[position] + inst.catalog[i].value]
    requires tracker' == tracker[position + inst.catalog[i].size := Chosen(Cut(i, position))]
    requires |r.0| == |r.1| == inst.length + 1
    requires RelaxPost(inst, position, i + 1, values', tracker', r)
    ensures RelaxPost(inst, position, i, values, tracker, r)
  {
    var e := position + inst.catalog[i].size;
    assert values'[position] == values[position];
    assert RelaxedCut(inst, r.0, i, position);
    forall j | 0 <= j <= inst.length && (r.0[j] != values[j] || r.1[j] != tracker[j])
      ensures Improved(inst, values, r.0, r.1, position, i, j)
    {
      if r.0[j] != values'[j] || r.1[j] != tracker'[j] {
        assert Improved(inst, values', r.0, r.1, position, i + 1, j);
        var c := r.1[j].cut;
        forall k | i <= k < c.kind && EndsAt(inst, k, position, j)
          ensures values[position] + inst.catalog[k].value < r.0[j]
        {
          if k == i {
            assert j == e;
          }
        }
      } else {
        assert j == e;
      }
    }
  }

  /** `RelaxPost` at `i` when entry `i` leaves the table alone. */
  lemma RelaxSkips(inst: Instance, position: nat, i: nat, values: seq<int>, tracker: seq<Track>,
                   r: (seq<int>, seq<Track>))
    requires PositiveLengths(inst.catalog)
    requires position <= inst.length && i < |inst.catalog|
    requires |values| == |tracker| == inst.length + 1
    requires var size := inst.catalog[i].size;
             EndsAt(inst, i, position, position + size) && position + size <= inst.length ==>
               values[position] + inst.catalog[i].value <= values[position + size]
    requires |r.0| == |r.1| == inst.length + 1
    requires RelaxPost(inst, position, i + 1, values, tracker, r)
    ensures RelaxPost(inst, position, i, values, tracker, r)
  {
    var e := position + inst.catalog[i].size;
    assert RelaxedCut(inst, r.0, i, position) by {
      if EndsAt(inst, i, position, e) && e <= inst.length {
        assert values[e] <= r.0[e];
      }
    }
    forall j | 0 <= j <= inst.length && (r.0[j] != values[j] || r.1[j] != tracker[j])
      ensures Improved(inst, values, r.0, r.1, position, i, j)
    {
      assert Improved(inst, values, r.0, r.1, position, i + 1, j);
    }
  }

  /** One position of the sweep (optimisation.py lines 70-80): the "skip one slot"
      transition raises entry `position + 1` to at least entry `position`,
      then the inner loop runs over the whole catalog. */
  function Step(inst: Instance, position: nat, values: seq<int>, tracker: seq<Track>): (r: (seq<int>, seq<Track>))
    requires PositiveLengths(inst.catalog)
    requires position < inst.length && |values| == |tracker| == inst.length + 1
    ensures |r.0| == |r.1| == inst.length + 1
  {
    Relax(inst, position, 0, values[position + 1 := Max(values[position + 1], values[position])], tracker)
  }

  /** The correction: when the skip transition is about to strictly raise
      entry `position + 1`, the cut recorded there no longer produces that
      entry and is forgotten. */
  function Cleared(values: seq<int>, tracker: seq<Track>, position: nat): (r: seq<Track>)
    requires position + 1 < |values| == |tracker|
    ensures |r| == |tracker|
  {
    if values[position] > values[position + 1] then tracker[position + 1 := Empty] else tracker
  }

  /** The sweep of `get_biscuit_placement_details` from `position` on. */
  function Sweep(inst: Instance, position: nat, values: seq<int>, tracker: seq<Track>): (r: (seq<int>, seq<Track>))
    requires PositiveLengths(inst.catalog)
    requires position <= inst.length && |values| == |tracker| == inst.length + 1
    ensures |r.0| == |r.1| == inst.length + 1
    decreases inst.length - position
  {
    if position == inst.length then (values, tracker)
    else
      var next := Step(inst, position, values, tracker);
      Sweep(inst, position + 1, next.0, next.1)
  }

  /** The corrected sweep from `position` on. */
  function SweepClearing(inst: Instance, position: nat, values: seq<int>, tracker: seq<Track>): (r: (seq<int>, seq<Track>))
    requires PositiveLengths(inst.catalog)
    requires position <= inst.length && |values| == |tracker| == inst.length + 1
    ensures |r.0| == |r.1| == inst.length + 1
    decreases inst.length - position
  {
    if position == inst.length then (values, tracker)
    else
      var next := Step(inst, position, values, Cleared(values, tracker, position));
      SweepClearing(inst, position + 1, next.0, next.1)
  }

  /** optimisation.py lines 67-80: the table and the tracker as the source fills them. */
  function Tables(inst: Instance): (r: (seq<int>, seq<Track>))
    requires PositiveLengths(inst.catalog)
    ensures |r.0| == |r.1| == inst.length + 1
  {
    Sweep(inst, 0, seq(inst.length + 1, _ => 0), seq(inst.length + 1, _ => Empty))
  }

  /** The table and the tracker of the corrected sweep. */
  function CorrectedTables(inst: Instance): (r: (seq<int>, seq<Track>))
    requires PositiveLengths(inst.catalog)
    ensures |r.0| == |r.1| == inst.length + 1
  {
    SweepClearing(inst, 0, seq(inst.length + 1, _ => 0), seq(inst.length + 1, _ => Empty))
  }

  // ---------------------------------------------------------------------
  // Invariants of the sweep
  // ---------------------------------------------------------------------

  /** Some plan inside `[0, k)` is worth exactly entry `k` of the table. */
  ghost predicate AttainedAt(inst: Instance, values: seq<int>, k: nat)
    requires k < |values|
  {
    exists plan :: ValidPlan(inst, plan, 0, k) && PlanValue(inst, plan) == values[k]
  }

  /** The table invariant before position `position` is processed. */
  ghost predicate ValuesInv(inst: Instance, position: nat, values: seq<int>)
  {
    && |values| == inst.length + 1
    && position <= inst.length
    && values[0] == 0
    && MonotoneUpTo(values, position)
    && Relaxed(inst, values, position, 0)
    && forall k | 0 <= k <= inst.length :: AttainedAt(inst, values, k)
  }

  /** No candidate for entry `j` tried before cut `c`, that is at an
      earlier position or at the same position with an earlier catalog
      entry, reaches the candidate of `c`. */
  ghost predicate Earliest(inst: Instance, values: seq<int>, c: Cut, j: nat)
    requires |values| == inst.length + 1 && c.kind < |inst.catalog|
    requires 0 <= c.start <= inst.length
  {
    forall k, q | 0 <= k < |inst.catalog| && 0 <= q && (q < c.start || (q == c.start && k < c.kind))
                  && EndsAt(inst, k, q, j) ::
      q <= inst.length && values[q] + inst.catalog[k].value < values[c.start] + inst.catalog[c.kind].value
  }

  /** What a tracker entry records: a fitting cut, processed before
      `position`, ending at `j`, whose candidate is at most the entry, and
      which is the earliest cut with the best candidate it saw. */
  ghost predicate TrackOk(inst: Instance, position: nat, values: seq<int>, t: Track, j: nat)
    requires |values| == inst.length + 1
  {
    t.Chosen? ==>
      && t.cut.kind < |inst.catalog|
      && 0 <= t.cut.start < position
      && t.cut.start <= inst.length
      && EndsAt(inst, t.cut.kind, t.cut.start, j)
      && values[t.cut.start] + inst.catalog[t.cut.kind].value <= values[j]
      && Earliest(inst, values, t.cut, j)
  }

  ghost predicate TrackInv(inst: Instance, position: nat, values: seq<int>, tracker: seq<Track>)
  {
    && |values| == |tracker| == inst.length + 1
    && forall j | 0 <= j <= inst.length :: TrackOk(inst, position, values, tracker[j], j)
  }

  /** The corrected sweep's tracker is exact: a recorded cut produces its
      entry, and an entry without a recorded cut is 0 or a copy of the
      entry before it. */
  ghost predicate ExactAt(inst: Instance, position: nat, values: seq<int>, t: Track, j: nat)
    requires |values| == inst.length + 1 && j <= inst.length
  {
    && (t.Chosen? && t.cut.kind < |inst.catalog| && 0 <= t.cut.start <= inst.length ==>
          values[t.cut.start] + inst.catalog[t.cut.kind].value == values[j])
    && (t.Empty? ==> values[j] == 0 || (0 < j <= position && values[j - 1] == values[j]))
  }

  ghost predicate ExactInv(inst: Instance, position: nat, values: seq<int>, tracker: seq<Track>)
  {
    && |values| == |tracker| == inst.length + 1
    && forall j | 0 <= j <= inst.length :: ExactAt(inst, position, values, tracker[j], j)
  }

  lemma InitialInv(inst: Instance)
    requires PositiveLengths(inst.catalog)
    ensures var values := seq(inst.length + 1, _ => 0);
            var tracker := seq(inst.length + 1, _ => Empty);
            ValuesInv(inst, 0, values) && TrackInv(inst, 0, values, tracker) && ExactInv(inst, 0, values, tracker)
  {
    var values := seq(inst.length + 1, _ => 0);
    forall k | 0 <= k <= inst.length
      ensures AttainedAt(inst, values, k)
    {
      assert ValidPlan(inst, [], 0, k) && PlanValue(inst, []) == 0;
    }
    forall i, q | 0 <= i < |inst.catalog| && q <= 0 && (q < 0 || i < 0)
      ensures RelaxedCut(inst, values, i, q)
    {
    }
  }

  /** After one step of either sweep, entry `k` is still worth what some
      plan inside `[0, k)` is worth. */
  lemma AttainedStep(inst: Instance, position: nat, values: seq<int>, tracker: seq<Track>, k: nat)
    requires PositiveLengths(inst.catalog)
    requires ValuesInv(inst, position, values) && position < inst.length && |tracker| == inst.length + 1
    requires k <= inst.length
    ensures AttainedAt(inst, Step(inst, position, values, tracker).0, k)
  {
    var skipped := values[position + 1 := Max(values[position + 1], values[position])];
    var r := Relax(inst, position, 0, skipped, tracker);
    RelaxSpec(inst, position, 0, skipped, tracker);
    assert r == Step(inst, position, values, tracker);
    if r.0[k] != skipped[k] {
      assert Improved(inst, skipped, r.0, r.1, position, 0, k);
      var c := r.1[k].cut;
      assert AttainedAt(inst, values, position);
      var plan :| ValidPlan(inst, plan, 0, position) && PlanValue(inst, plan) == values[position];
      ExtendPlan(inst, plan, c);
    } else if k == position + 1 && values[position] > values[position + 1] {
      assert AttainedAt(inst, values, position);
      var plan :| ValidPlan(inst, plan, 0, position) && PlanValue(inst, plan) == values[position];
      WidenPlan(inst, plan, position, k);
    } else {
      assert AttainedAt(inst, values, k);
    }
  }

  /** One step of either sweep keeps the table invariant. */
  lemma ValuesStep(inst: Instance, position: nat, values: seq<int>, tracker: seq<Track>)
    requires PositiveLengths(inst.catalog)
    requires ValuesInv(inst, position, values) && position < inst.length && |tracker| == inst.length + 1
    ensures ValuesInv(inst, position + 1, Step(inst, position, values, tracker).0)
  {
    var skipped := values[position + 1 := Max(values[position + 1], values[position])];
    var r := Relax(inst, position, 0, skipped, tracker);
    RelaxSpec(inst, position, 0, skipped, tracker);
    assert r == Step(inst, position, values, tracker);
    MonotoneExtend(values, r.0, position);
    RelaxedRaise(inst, values, r.0, position, 0);
    forall i, q | 0 <= i < |inst.catalog| && q <= position + 1 && (q < position + 1 || i < 0)
      ensures RelaxedCut(inst, r.0, i, q)
    {
      if q < position {
        assert RelaxedCut(inst, r.0, i, q);
      } else {
        assert RelaxedCut(inst, r.0, i, position);
      }
    }
    forall k | 0 <= k <= inst.length
      ensures AttainedAt(inst, r.0, k)
    {
      AttainedStep(inst, position, values, tracker, k);
    }
  }

  /** An entry the inner loop at `position` overwrote records a cut that
      no earlier candidate reaches. */
  lemma TrackImproved(inst: Instance, position: nat, values: seq<int>, skipped: seq<int>,
                      r: (seq<int>, seq<Track>), j: nat)
    requires PositiveLengths(inst.catalog)
    requires |values| == |skipped| == |r.0| == |r.1| == inst.length + 1
    requires position < inst.length && j <= inst.length
    requires Relaxed(inst, values, position, 0)
    requires forall q | 0 <= q <= position :: r.0[q] == values[q] && skipped[q] == values[q]
    requires forall q | 0 <= q <= inst.length :: values[q] <= skipped[q]
    requires Improved(inst, skipped, r.0, r.1, position, 0, j)
    ensures TrackOk(inst, position + 1, r.0, r.1[j], j)
  {
    var c := r.1[j].cut;
    forall k, q | 0 <= k < |inst.catalog| && 0 <= q && (q < c.start || (q == c.start && k < c.kind))
                  && EndsAt(inst, k, q, j)
      ensures q <= inst.length && r.0[q] + inst.catalog[k].value < r.0[c.start] + inst.catalog[c.kind].value
    {
      if q < position {
        assert RelaxedCut(inst, values, k, q);
      }
    }
  }

  /** An entry the inner loop at `position` left alone keeps its record,
      since every table entry the record mentions is frozen. */
  lemma TrackKept(inst: Instance, position: nat, values: seq<int>, values': seq<int>, t: Track, j: nat)
    requires |values| == |values'| == inst.length + 1 && position < inst.length && j <= inst.length
    requires forall q | 0 <= q <= position :: values'[q] == values[q]
    requires values[j] <= values'[j]
    requires TrackOk(inst, position, values, t, j)
    ensures TrackOk(inst, position + 1, values', t, j)
  {
    if t.Chosen? {
      var c := t.cut;
      forall k, q | 0 <= k < |inst.catalog| && 0 <= q && (q < c.start || (q == c.start && k < c.kind))
                    && EndsAt(inst, k, q, j)
        ensures q <= inst.length && values'[q] + inst.catalog[k].value < values'[c.start] + inst.catalog[c.kind].value
      {
      }
    }
  }

  /** One step of either sweep keeps tracker entry `j` well recorded, when
      the skip transition at most clears it beforehand. */
  lemma TrackEntry(inst: Instance, position: nat, values: seq<int>, tracker: seq<Track>, cleared: seq<Track>, j: nat)
    requires PositiveLengths(inst.catalog)
    requires ValuesInv(inst, position, values) && position < inst.length
    requires |tracker| == |cleared| == inst.length + 1 && j <= inst.length
    requires TrackOk(inst, position, values, tracker[j], j)
    requires cleared[j] == tracker[j] || cleared[j] == Empty
    ensures TrackOk(inst, position + 1, Step(inst, position, values, cleared).0,
                    Step(inst, position, values, cleared).1[j], j)
  {
    var skipped := values[position + 1 := Max(values[position + 1], values[position])];
    var r := Relax(inst, position, 0, skipped, cleared);
    RelaxSpec(inst, position, 0, skipped, cleared);
    assert r == Step(inst, position, values, cleared);
    if r.0[j] != skipped[j] || r.1[j] != cleared[j] {
      TrackImproved(inst, position, values, skipped, r, j);
    } else {
      TrackKept(inst, position, values, r.0, cleared[j], j);
    }
  }

  /** One step of either sweep keeps the tracker invariant. */
  lemma TrackStep(inst: Instance, position: nat, values: seq<int>, tracker: seq<Track>, cleared: seq<Track>)
    requires PositiveLengths(inst.catalog)
    requires ValuesInv(inst, position, values) && TrackInv(inst, position, values, tracker) && position < inst.length
    requires |cleared| == inst.length + 1
    requires forall j | 0 <= j <= inst.length :: cleared[j] == tracker[j] || cleared[j] == Empty
    ensures TrackInv(inst, position + 1, Step(inst, position, values, cleared).0, Step(inst, position, values, cleared).1)
  {
    var r := Step(inst, position, values, cleared);
    forall j | 0 <= j <= inst.length
      ensures TrackOk(inst, position + 1, r.0, r.1[j], j)
    {
      TrackEntry(inst, position, values, tracker, cleared, j);
    }
  }

  /** One step of the corrected sweep keeps tracker entry `j` exact. */
  lemma ExactEntry(inst: Instance, position: nat, values: seq<int>, tracker: seq<Track>, j: nat)
    requires PositiveLengths(inst.catalog)
    requires |values| == |tracker| == inst.length + 1 && position < inst.length && j <= inst.length
    requires TrackOk(inst, position, values, tracker[j], j)
    requires ExactAt(inst, position, values, tracker[j], j)
    ensures var r := Step(inst, position, values, Cleared(values, tracker, position));
            ExactAt(inst, position + 1, r.0, r.1[j], j)
  {
    var skipped := values[position + 1 := Max(values[position + 1], values[position])];
    var cleared := Cleared(values, tracker, position);
    var r := Relax(inst, position, 0, skipped, cleared);
    RelaxSpec(inst, position, 0, skipped, cleared);
    assert r == Step(inst, position, values, cleared);
    if r.0[j] != skipped[j] || r.1[j] != cleared[j] {
      assert Improved(inst, skipped, r.0, r.1, position, 0, j);
    } else if j == position + 1 && values[position] > values[position + 1] {
      assert r.1[j] == Empty;
    }
  }

  /** One step of the corrected sweep keeps its tracker exact. */
  lemma ExactStep(inst: Instance, position: nat, values: seq<int>, tracker: seq<Track>)
    requires PositiveLengths(inst.catalog)
    requires TrackInv(inst, position, values, tracker) && ExactInv(inst, position, values, tracker)
    requires position < inst.length
    ensures var r := Step(inst, position, values, Cleared(values, tracker, position));
            ExactInv(inst, position + 1, r.0, r.1)
  {
    var r := Step(inst, position, values, Cleared(values, tracker, position));
    forall j | 0 <= j <= inst.length
      ensures ExactAt(inst, position + 1, r.0, r.1[j], j)
    {
      ExactEntry(inst, position, values, tracker, j);
    }
  }

  /** The sweep from `position` on keeps the invariants. */
  lemma {:induction false} SweepKeeps(inst: Instance, position: nat, values: seq<int>, tracker: seq<Track>)
    requires PositiveLengths(inst.catalog)
    requires ValuesInv(inst, position, values) && TrackInv(inst, position, values, tracker)
    ensures ValuesInv(inst, inst.length, Sweep(inst, position, values, tracker).0)
    ensures TrackInv(inst, inst.length, Sweep(inst, position, values, tracker).0, Sweep(inst, position, values, tracker).1)
    decreases inst.length - position
  {
    if position < inst.length {
      var next := Step(inst, position, values, tracker);
      ValuesStep(inst, position, values, tracker);
      TrackStep(inst, position, values, tracker, tracker);
      SweepKeeps(inst, position + 1, next.0, next.1);
      assert Sweep(inst, position, values, tracker) == Sweep(inst, position + 1, next.0, next.1);
    }
  }

  /** The invariant of the corrected sweep. */
  ghost predicate CorrectedInv(inst: Instance, position: nat, values: seq<int>, tracker: seq<Track>)
  {
    ValuesInv(inst, position, values) && TrackInv(inst, position, values, tracker) && ExactInv(inst, position, values, tracker)
  }

  lemma CorrectedStep(inst: Instance, position: nat, values: seq<int>, tracker: seq<Track>)
    requires PositiveLengths(inst.catalog)
    requires CorrectedInv(inst, position, values, tracker) && position < inst.length
    ensures CorrectedInv(inst, position + 1, Step(inst, position, values, Cleared(values, tracker, position)).0,
                         Step(inst, position, values, Cleared(values, tracker, position)).1)
  {
    var cleared := Cleared(values, tracker, position);
    assert forall j | 0 <= j <= inst.length :: cleared[j] == tracker[j] || cleared[j] == Empty;
    ValuesStep(inst, position, values, cleared);
    TrackStep(inst, position, values, tracker, cleared);
    ExactStep(inst, position, values, tracker);
  }

  /** The corrected sweep from `position` on keeps its invariant. */
  lemma {:induction false} SweepClearingKeeps(inst: Instance, position: nat, values: seq<int>, tracker: seq<Track>)
    requires PositiveLengths(inst.catalog)
    requires CorrectedInv(inst, position, values, tracker)
    ensures CorrectedInv(inst, inst.length, SweepClearing(inst, position, values, tracker).0,
                         SweepClearing(inst, position, values, tracker).1)
    decreases inst.length - position
  {
    if position < inst.length {
      var next := Step(inst, position, values, Cleared(values, tracker, position));
      CorrectedStep(inst, position, values, tracker);
      SweepClearingKeeps(inst, position + 1, next.0, next.1);
      assert SweepClearing(inst, position, values, tracker) == SweepClearing(inst, position + 1, next.0, next.1);
    }
  }

  /** The finished table of a sweep holds the optimum in every entry. */
  lemma ValuesOptimal(inst: Instance, values: seq<int>)
    requires PositiveLengths(inst.catalog)
    requires ValuesInv(inst, inst.length, values)
    ensures OptimalTable(inst, values)
  {
    forall k | 0 <= k <= inst.length
      ensures OptimumAt(inst, values, k)
    {
      forall plan | ValidPlan(inst, plan, 0, k)
        ensures PlanValue(inst, plan) <= values[k]
      {
        UpperBound(inst, values, plan, k);
      }
      assert AttainedAt(inst, values, k);
    }
  }

  /** The table of `get_biscuit_placement_details` is the optimal table,
      and each tracker entry records a fitting cut ending at that entry,
      worth at most the entry, that is the earliest cut to reach its
      candidate: a later tie never replaces it. */
  lemma TablesCorrect(inst: Instance)
    requires PositiveLengths(inst.catalog)
    ensures OptimalTable(inst, Tables(inst).0)
    ensures TrackInv(inst, inst.length, Tables(inst).0, Tables(inst).1)
    ensures ValuesInv(inst, inst.length, Tables(inst).0)
  {
    InitialInv(inst);
    SweepKeeps(inst, 0, seq(inst.length + 1, _ => 0), seq(inst.length + 1, _ => Empty));
    ValuesOptimal(inst, Tables(inst).0);
  }

  lemma CorrectedTablesCorrect(inst: Instance)
    requires PositiveLengths(inst.catalog)
    ensures OptimalTable(inst, CorrectedTables(inst).0)
    ensures TrackInv(inst, inst.length, CorrectedTables(inst).0, CorrectedTables(inst).1)
    ensures ExactInv(inst, inst.length, CorrectedTables(inst).0, CorrectedTables(inst).1)
    ensures ValuesInv(inst, inst.length, CorrectedTables(inst).0)
  {
    InitialInv(inst);
    SweepClearingKeeps(inst, 0, seq(inst.length + 1, _ => 0), seq(inst.length + 1, _ => Empty));
    ValuesOptimal(inst, CorrectedTables(inst).0);
  }

  /** `optimize_biscuit_placement`, with `max`, and the tracked sweep, with
      a strict improvement test, fill identical tables. */
  lemma SameTables(inst: Instance, maxValues: seq<int>)
    requires PositiveLengths(inst.catalog)
    requires OptimalTable(inst, maxValues)
    ensures maxValues == Tables(inst).0
    ensures maxValues == CorrectedTables(inst).0
  {
    TablesCorrect(inst);
    CorrectedTablesCorrect(inst);
    OptimalTableUnique(inst, maxValues, Tables(inst).0);
    OptimalTableUnique(inst, maxValues, CorrectedTables(inst).0);
  }

  // ---------------------------------------------------------------------
  // Reconstruction
  // ---------------------------------------------------------------------

  /** Every recorded cut is a real catalog entry ending where it is
      recorded, and starts strictly before that. */
  predicate WellTracked(inst: Instance, tracker: seq<Track>)
  {
    forall j | 0 <= j < |tracker| ::
      tracker[j].Chosen? ==>
        && tracker[j].cut.kind < |inst.catalog|
        && 0 <= tracker[j].cut.start < j
        && End(inst, tracker[j].cut) == j
  }

  /** optimisation.py lines 83-94: walk back from `current`; a recorded
      cut is emitted and the walk jumps to its start, otherwise it steps
      back one slot. The cuts come out in left-to-right order, which is
      what reversing the backward list gives. `ReconstructShape` states
      what it returns. */
  function Reconstruct(inst: Instance, tracker: seq<Track>, current: nat): (plan: seq<Cut>)
    requires current < |tracker| && WellTracked(inst, tracker)
    ensures |plan| <= current
    decreases current
  {
    if current == 0 then []
    else
      match tracker[current]
      case Chosen(c) => Reconstruct(inst, tracker, c.start) + [c]
      case Empty => Reconstruct(inst, tracker, current - 1)
  }

  /** Cut `c` is recorded in the tracker at its own end, which lies in
      `[0, current]`. */
  predicate Recorded(inst: Instance, tracker: seq<Track>, c: Cut, current: nat)
  {
    && c.kind < |inst.catalog|
    && 0 <= c.start
    && 0 <= End(inst, c) <= current
    && End(inst, c) < |tracker|
    && tracker[End(inst, c)] == Chosen(c)
  }

  /** The walk back emits only cuts recorded at their own end inside
      `[0, current]`, each ending before the next begins. */
  lemma {:induction false} ReconstructShape(inst: Instance, tracker: seq<Track>, current: nat)
    requires current < |tracker| && WellTracked(inst, tracker)
    ensures forall j | 0 <= j < |Reconstruct(inst, tracker, current)| ::
              Recorded(inst, tracker, Reconstruct(inst, tracker, current)[j], current)
    ensures forall j, k | 0 <= j < k < |Reconstruct(inst, tracker, current)| ::
              && Reconstruct(inst, tracker, current)[j].kind < |inst.catalog|
              && End(inst, Reconstruct(inst, tracker, current)[j]) <= Reconstruct(inst, tracker, current)[k].start
    decreases current
  {
    if current == 0 {
      assert Reconstruct(inst, tracker, 0) == [];
    } else {
      match tracker[current]
      case Chosen(c) =>
        ReconstructChosen(inst, tracker, current, c);
        ReconstructShape(inst, tracker, c.start);
        var prefix := Reconstruct(inst, tracker, c.start);
        var plan := prefix + [c];
        forall j | 0 <= j < |plan|
          ensures Recorded(inst, tracker, plan[j], current)
        {
          if j < |prefix| {
            assert plan[j] == prefix[j];
            assert Recorded(inst, tracker, prefix[j], c.start);
          }
        }
        forall j, k | 0 <= j < k < |plan|
          ensures End(inst, plan[j]) <= plan[k].start
        {
          assert plan[j] == prefix[j];
          assert Recorded(inst, tracker, prefix[j], c.start);
          if k < |prefix| {
            assert plan[k] == prefix[k];
          }
        }
      case Empty =>
        ReconstructEmpty(inst, tracker, current);
        ReconstructShape(inst, tracker, current - 1);
        var plan := Reconstruct(inst, tracker, current - 1);
        forall j | 0 <= j < |plan|
          ensures Recorded(inst, tracker, plan[j], current)
        {
          assert Recorded(inst, tracker, plan[j], current - 1);
        }
    }
  }

  /** A tracker satisfying the sweep invariant yields a plan. */
  lemma {:induction false} ReconstructValid(inst: Instance, values: seq<int>, tracker: seq<Track>, current: nat)
    requires PositiveLengths(inst.catalog)
    requires TrackInv(inst, inst.length, values, tracker) && current <= inst.length
    ensures WellTracked(inst, tracker)
    ensures ValidPlan(inst, Reconstruct(inst, tracker, current), 0, current)
  {
    forall j | 0 <= j < |tracker| && tracker[j].Chosen?
      ensures tracker[j].cut.kind < |inst.catalog| && 0 <= tracker[j].cut.start < j && End(inst, tracker[j].cut) == j
    {
      assert TrackOk(inst, inst.length, values, tracker[j], j);
    }
    ReconstructShape(inst, tracker, current);
    var plan := Reconstruct(inst, tracker, current);
    forall j | 0 <= j < |plan|
      ensures LegalCut(inst, plan[j], 0, current)
    {
      assert Recorded(inst, tracker, plan[j], current);
      var e := End(inst, plan[j]);
      assert TrackOk(inst, inst.length, values, tracker[e], e);
    }
  }

  /** A recorded cut at `current` is the last cut of the walk from there. */
  lemma ReconstructChosen(inst: Instance, tracker: seq<Track>, current: nat, c: Cut)
    requires 0 < current < |tracker| && WellTracked(inst, tracker) && tracker[current] == Chosen(c)
    ensures c.kind < |inst.catalog| && c.start < current
    ensures Reconstruct(inst, tracker, current) == Reconstruct(inst, tracker, c.start) + [c]
  {
  }

  /** Without a record at `current`, the walk steps back one slot. */
  lemma ReconstructEmpty(inst: Instance, tracker: seq<Track>, current: nat)
    requires 0 < current < |tracker| && WellTracked(inst, tracker) && tracker[current] == Empty
    ensures Reconstruct(inst, tracker, current) == Reconstruct(inst, tracker, current - 1)
  {
  }

  /** The candidate a recorded cut offers is at most the entry it sits at. */
  ghost predicate CandidateBelow(inst: Instance, values: seq<int>, t: Track, j: nat)
    requires |values| == inst.length + 1 && j <= inst.length
  {
    t.Chosen? && t.cut.kind < |inst.catalog| && 0 <= t.cut.start <= inst.length ==>
      values[t.cut.start] + inst.catalog[t.cut.kind].value <= values[j]
  }

  /** What the walk back needs of a finished sweep to stay within the
      table: the table starts at 0 and never decreases, and every recorded
      cut is well placed and offers at most its entry. */
  ghost predicate BoundedTracker(inst: Instance, values: seq<int>, tracker: seq<Track>)
  {
    && |values| == |tracker| == inst.length + 1
    && values[0] == 0
    && MonotoneUpTo(values, inst.length)
    && WellTracked(inst, tracker)
    && forall j | 0 <= j <= inst.length :: CandidateBelow(inst, values, tracker[j], j)
  }

  /** A finished sweep's table and tracker are ready for the walk back. */
  lemma TrackerBounded(inst: Instance, values: seq<int>, tracker: seq<Track>)
    requires PositiveLengths(inst.catalog)
    requires ValuesInv(inst, inst.length, values) && TrackInv(inst, inst.length, values, tracker)
    ensures BoundedTracker(inst, values, tracker)
  {
    ReconstructValid(inst, values, tracker, 0);
    forall j | 0 <= j <= inst.length
      ensures CandidateBelow(inst, values, tracker[j], j)
    {
      assert TrackOk(inst, inst.length, values, tracker[j], j);
    }
  }

  /** The reconstructed plan is worth at most the table entry it starts from. */
  lemma {:induction false} ReconstructBound(inst: Instance, values: seq<int>, tracker: seq<Track>, current: nat)
    requires BoundedTracker(inst, values, tracker) && current <= inst.length
    ensures KnownKinds(inst, Reconstruct(inst, tracker, current))
    ensures PlanValue(inst, Reconstruct(inst, tracker, current)) <= values[current]
    decreases current
  {
    if current == 0 {
      assert Reconstruct(inst, tracker, 0) == [];
    } else {
      match tracker[current]
      case Chosen(c) =>
        ReconstructChosen(inst, tracker, current, c);
        ReconstructBound(inst, values, tracker, c.start);
        PlanValueSnoc(inst, Reconstruct(inst, tracker, c.start), c);
        assert CandidateBelow(inst, values, tracker[current], current);
      case Empty =>
        ReconstructEmpty(inst, tracker, current);
        ReconstructBound(inst, values, tracker, current - 1);
        assert StepUp(values, current);
    }
  }

  /** What the walk back needs of the corrected sweep to reproduce the
      table: the table starts at 0 and never decreases, every recorded
      cut is well placed, and the tracker is exact. */
  ghost predicate ExactTracker(inst: Instance, values: seq<int>, tracker: seq<Track>)
  {
    && ExactInv(inst, inst.length, values, tracker)
    && values[0] == 0
    && MonotoneUpTo(values, inst.length)
    && WellTracked(inst, tracker)
  }

  /** In an exact tracker, a recorded cut produces its entry. */
  lemma ExactChosen(inst: Instance, values: seq<int>, tracker: seq<Track>, current: nat, c: Cut)
    requires ExactTracker(inst, values, tracker) && 0 < current <= inst.length
    requires tracker[current] == Chosen(c)
    ensures c.kind < |inst.catalog| && 0 <= c.start < current
    ensures values[c.start] + inst.catalog[c.kind].value == values[current]
  {
    assert ExactAt(inst, inst.length, values, tracker[current], current);
  }

  /** In an exact tracker, an entry without a record repeats the entry
      before it. */
  lemma ExactEmpty(inst: Instance, values: seq<int>, tracker: seq<Track>, current: nat)
    requires ExactTracker(inst, values, tracker) && 0 < current <= inst.length
    requires tracker[current] == Empty
    ensures values[current - 1] == values[current]
  {
    assert ExactAt(inst, inst.length, values, tracker[current], current);
    MonotoneChain(values, 0, current - 1);
    assert StepUp(values, current);
  }

  /** Entry `j` is what one step of the walk back from it accounts for: a
      recorded cut's candidate, or else the entry before it. */
  ghost predicate StepBack(inst: Instance, values: seq<int>, t: Track, j: nat)
    requires |values| == inst.length + 1 && 0 < j <= inst.length
  {
    match t
    case Chosen(c) => c.kind < |inst.catalog| && 0 <= c.start < j && values[c.start] + inst.catalog[c.kind].value == values[j]
    case Empty => values[j - 1] == values[j]
  }

  /** Every entry of the table is accounted for by the walk back. */
  ghost predicate Walkable(inst: Instance, values: seq<int>, tracker: seq<Track>)
  {
    && |values| == |tracker| == inst.length + 1
    && values[0] == 0
    && WellTracked(inst, tracker)
    && forall j | 0 < j <= inst.length :: StepBack(inst, values, tracker[j], j)
  }

  lemma ExactWalkable(inst: Instance, values: seq<int>, tracker: seq<Track>)
    requires ExactTracker(inst, values, tracker)
    ensures Walkable(inst, values, tracker)
  {
    forall j | 0 < j <= inst.length
      ensures StepBack(inst, values, tracker[j], j)
    {
      match tracker[j]
      case Chosen(c) => ExactChosen(inst, values, tracker, j, c);
      case Empty => ExactEmpty(inst, values, tracker, j);
    }
  }

  /** With an exact tracker, the reconstructed plan is worth exactly the
      table entry it starts from. */
  lemma {:induction false} ReconstructExact(inst: Instance, values: seq<int>, tracker: seq<Track>, current: nat)
    requires Walkable(inst, values, tracker) && current <= inst.length
    ensures KnownKinds(inst, Reconstruct(inst, tracker, current))
    ensures PlanValue(inst, Reconstruct(inst, tracker, current)) == values[current]
    decreases current
  {
    if current == 0 {
      assert Reconstruct(inst, tracker, 0) == [];
    } else {
      assert StepBack(inst, values, tracker[current], current);
      match tracker[current]
      case Chosen(c) =>
        ReconstructChosen(inst, tracker, current, c);
        ReconstructExact(inst, values, tracker, c.start);
        PlanValueSnoc(inst, Reconstruct(inst, tracker, c.start), c);
      case Empty =>
        ReconstructEmpty(inst, tracker, current);
        ReconstructExact(inst, values, tracker, current - 1);
    }
  }

  // ---------------------------------------------------------------------
  // Entry points
  // ---------------------------------------------------------------------

  /** `get_biscuit_placement_details` as written: the reconstructed cuts
      form a plan of legal, non-overlapping cuts inside the roll, worth at
      most the optimum the table holds; with no biscuit short enough it is
      empty. It is not always optimal (see `StaleTrackerCounterexample`). */
  function GetBiscuitPlacementDetails(catalog: seq<Biscuit>, doughLength: nat, defects: seq<Defect>): (plan: seq<Cut>)
    requires PositiveLengths(catalog)
    ensures ValidPlan(Instance(catalog, doughLength, defects), plan, 0, doughLength)
    ensures KnownKinds(Instance(catalog, doughLength, defects), plan)
    ensures forall j, k | 0 <= j < k < |plan| :: plan[j].start < plan[k].start
    ensures PlanValue(Instance(catalog, doughLength, defects), plan) <= Tables(Instance(catalog, doughLength, defects)).0[doughLength]
    ensures (forall i | 0 <= i < |catalog| :: catalog[i].size > doughLength) ==> plan == []
  {
    var inst := Instance(catalog, doughLength, defects);
    var tables := Tables(inst);
    TablesCorrect(inst);
    ReconstructValid(inst, tables.0, tables.1, doughLength);
    TrackerBounded(inst, tables.0, tables.1);
    ReconstructBound(inst, tables.0, tables.1, doughLength);
    var plan := Reconstruct(inst, tables.1, doughLength);
    if forall i | 0 <= i < |catalog| :: catalog[i].size > doughLength then
      NothingFits(inst, plan, doughLength);
      plan
    else
      plan
  }

  /** The corrected placement details: the same walk over the corrected
      tracker yields a plan worth exactly the optimum, so no plan of legal,
      non-overlapping cuts inside the roll is worth more. */
  function GetOptimalPlacementDetails(catalog: seq<Biscuit>, doughLength: nat, defects: seq<Defect>): (plan: seq<Cut>)
    requires PositiveLengths(catalog)
    ensures ValidPlan(Instance(catalog, doughLength, defects), plan, 0, doughLength)
    ensures IsOptimum(Instance(catalog, doughLength, defects), PlanValue(Instance(catalog, doughLength, defects), plan), doughLength)
  {
    var inst := Instance(catalog, doughLength, defects);
    var tables := CorrectedTables(inst);
    CorrectedTablesCorrect(inst);
    ReconstructValid(inst, tables.0, tables.1, doughLength);
    ExactWalkable(inst, tables.0, tables.1);
    ReconstructExact(inst, tables.0, tables.1, doughLength);
    assert OptimumAt(inst, tables.0, doughLength);
    Reconstruct(inst, tables.1, doughLength)
  }

  // ---------------------------------------------------------------------
  // The stale tracker
  // ---------------------------------------------------------------------

  /** A three-slot roll with a defect of class "x" at slot 2. Biscuit A
      spans the whole roll and tolerates one such defect; biscuit B covers
      slots 0 and 1 and tolerates none. */
  function StaleInstance(): Instance
  {
    Instance([Biscuit("A", 3, 1, map["x" := 1]), Biscuit("B", 2, 5, map["x" := 0])], 3, [Defect(2, "x")])
  }

  /** The steps both sweeps take on `StaleInstance`: at slot 0, A raises
      entry 3 to 1 and B raises entry 2 to 5; at slot 1 nothing fits; at
      slot 2 the skip transition raises entry 3 to 5. */
  lemma StaleSteps()
    ensures var inst := StaleInstance();
            var t1 := [Empty, Empty, Chosen(Cut(1, 0)), Chosen(Cut(0, 0))];
            && Step(inst, 0, [0, 0, 0, 0], [Empty, Empty, Empty, Empty]) == ([0, 0, 5, 1], t1)
            && Step(inst, 1, [0, 0, 5, 1], t1) == ([0, 0, 5, 1], t1)
            && Step(inst, 2, [0, 0, 5, 1], t1) == ([0, 0, 5, 5], t1)
            && Step(inst, 2, [0, 0, 5, 1], Cleared([0, 0, 5, 1], t1, 2)) == ([0, 0, 5, 5], t1[3 := Empty])
  {
    var inst := StaleInstance();
    var cat := inst.catalog;
    var t1 := [Empty, Empty, Chosen(Cut(1, 0)), Chosen(Cut(0, 0))];
    assert CountIn(inst.defects, "x", 0, 3) == 1 && CountIn(inst.defects, "x", 0, 2) == 0;
    assert CountIn(inst.defects, "x", 1, 3) == 1;
    assert CanPlaceBiscuit(cat[0], 0, inst.defects, 3) by {
      forall c | c in cat[0].tolerance
        ensures CountIn(inst.defects, c, 0, 3) <= cat[0].tolerance[c]
      {
        assert c == "x";
      }
    }
    assert CanPlaceBiscuit(cat[1], 0, inst.defects, 3) by {
      forall c | c in cat[1].tolerance
        ensures CountIn(inst.defects, c, 0, 2) <= cat[1].tolerance[c]
      {
        assert c == "x";
      }
    }
    assert !CanPlaceBiscuit(cat[1], 1, inst.defects, 3) by {
      assert "x" in cat[1].tolerance;
    }
    assert [0, 0, 0, 0][3 := 1] == [0, 0, 0, 1];
    assert [0, 0, 0, 1][2 := 5] == [0, 0, 5, 1];
    assert [Empty, Empty, Empty, Empty][3 := Chosen(Cut(0, 0))][2 := Chosen(Cut(1, 0))] == t1;
    assert Relax(inst, 0, 2, [0, 0, 5, 1], t1) == ([0, 0, 5, 1], t1);
    assert [Empty, Empty, Empty, Chosen(Cut(0, 0))][2 := Chosen(Cut(1, 0))] == t1;
    assert Relax(inst, 0, 1, [0, 0, 0, 1], [Empty, Empty, Empty, Chosen(Cut(0, 0))]) == ([0, 0, 5, 1], t1);
    assert [0, 0, 0, 0][1 := Max(0, 0)] == [0, 0, 0, 0];
    assert [0, 0, 5, 1][2 := Max(5, 0)] == [0, 0, 5, 1];
    assert Relax(inst, 1, 1, [0, 0, 5, 1], t1) == ([0, 0, 5, 1], t1);
    assert [0, 0, 5, 1][3 := Max(1, 5)] == [0, 0, 5, 5];
    assert Relax(inst, 2, 1, [0, 0, 5, 5], t1) == ([0, 0, 5, 5], t1);
    assert Cleared([0, 0, 5, 1], t1, 2) == t1[3 := Empty];
    assert Relax(inst, 2, 1, [0, 0, 5, 5], t1[3 := Empty]) == ([0, 0, 5, 5], t1[3 := Empty]);
  }

  lemma StaleTables()
    ensures Tables(StaleInstance()) == ([0, 0, 5, 5], [Empty, Empty, Chosen(Cut(1, 0)), Chosen(Cut(0, 0))])
    ensures CorrectedTables(StaleInstance()) == ([0, 0, 5, 5], [Empty, Empty, Chosen(Cut(1, 0)), Empty])
  {
    var inst := StaleInstance();
    var t1 := [Empty, Empty, Chosen(Cut(1, 0)), Chosen(Cut(0, 0))];
    StaleSteps();
    assert seq(4, _ => 0) == [0, 0, 0, 0];
    assert seq(4, _ => Empty) == [Empty, Empty, Empty, Empty];
    assert Cleared([0, 0, 0, 0], [Empty, Empty, Empty, Empty], 0) == [Empty, Empty, Empty, Empty];
    assert Cleared([0, 0, 5, 1], t1, 1) == t1;
    assert Sweep(inst, 3, [0, 0, 5, 5], t1) == ([0, 0, 5, 5], t1);
    assert Sweep(inst, 2, [0, 0, 5, 1], t1) == ([0, 0, 5, 5], t1);
    assert Sweep(inst, 1, [0, 0, 5, 1], t1) == ([0, 0, 5, 5], t1);
    assert SweepClearing(inst, 3, [0, 0, 5, 5], t1[3 := Empty]) == ([0, 0, 5, 5], t1[3 := Empty]);
    assert SweepClearing(inst, 2, [0, 0, 5, 1], t1) == ([0, 0, 5, 5], t1[3 := Empty]);
    assert SweepClearing(inst, 1, [0, 0, 5, 1], t1) == ([0, 0, 5, 5], t1[3 := Empty]);
    assert t1[3 := Empty] == [Empty, Empty, Chosen(Cut(1, 0)), Empty];
  }

  /** On `StaleInstance`, B alone is a plan worth 5. */
  lemma StaleBetterPlan()
    ensures ValidPlan(StaleInstance(), [Cut(1, 0)], 0, 3) && PlanValue(StaleInstance(), [Cut(1, 0)]) == 5
  {
    var inst := StaleInstance();
    assert CountIn(inst.defects, "x", 0, 2) == 0;
    assert LegalCut(inst, Cut(1, 0), 0, 3) by {
      forall c | c in inst.catalog[1].tolerance
        ensures CountIn(inst.defects, c, 0, 2) <= inst.catalog[1].tolerance[c]
      {
        assert c == "x";
      }
    }
    assert [Cut(1, 0)][..0] == [];
  }

  /** As written, the walk back over the tracker of `StaleInstance` emits
      A alone. */
  lemma StaleReconstruction()
    ensures GetBiscuitPlacementDetails(StaleInstance().catalog, 3, StaleInstance().defects) == [Cut(0, 0)]
  {
    var inst := StaleInstance();
    var t1 := [Empty, Empty, Chosen(Cut(1, 0)), Chosen(Cut(0, 0))];
    StaleTables();
    forall j | 0 <= j < |t1| && t1[j].Chosen?
      ensures t1[j].cut.kind < |inst.catalog| && 0 <= t1[j].cut.start < j && End(inst, t1[j].cut) == j
    {
      if j == 2 {
        assert End(inst, Cut(1, 0)) == 2;
      } else {
        assert j == 3;
        assert End(inst, Cut(0, 0)) == 3;
      }
    }
    assert Instance(inst.catalog, 3, inst.defects) == inst;
    assert GetBiscuitPlacementDetails(inst.catalog, 3, inst.defects) == Reconstruct(inst, t1, 3);
    assert Reconstruct(inst, t1, 3) == Reconstruct(inst, t1, 0) + [Cut(0, 0)];
  }

  /** As written, the skip transition at slot 2 raises entry 3 from 1 to 5
      but leaves A recorded there, so the walk back emits A alone, worth 1,
      while B alone is a plan worth 5: the returned placement is not
      optimal. */
  lemma StaleTrackerCounterexample()
    ensures Tables(StaleInstance()) == ([0, 0, 5, 5], [Empty, Empty, Chosen(Cut(1, 0)), Chosen(Cut(0, 0))])
    ensures GetBiscuitPlacementDetails(StaleInstance().catalog, 3, StaleInstance().defects) == [Cut(0, 0)]
    ensures PlanValue(StaleInstance(), [Cut(0, 0)]) == 1
    ensures !IsOptimum(StaleInstance(), PlanValue(StaleInstance(), [Cut(0, 0)]), 3)
  {
    StaleTables();
    StaleReconstruction();
    assert [Cut(0, 0)][..0] == [];
    StaleBetterPlan();
  }

  /** The corrected sweep forgets A at entry 3, so the walk back steps to
      entry 2 and emits B, worth the optimum 5. */
  lemma StaleTrackerCorrected()
    ensures CorrectedTables(StaleInstance()) == ([0, 0, 5, 5], [Empty, Empty, Chosen(Cut(1, 0)), Empty])
    ensures GetOptimalPlacementDetails(StaleInstance().catalog, 3, StaleInstance().defects) == [Cut(1, 0)]
  {
    StaleTables();
    CorrectedWalk();
  }

  /** The walk back over the corrected tracker of `StaleInstance` steps
      from entry 3 to entry 2 and emits B. */
  lemma CorrectedWalk()
    ensures Reconstruct(StaleInstance(), [Empty, Empty, Chosen(Cut(1, 0)), Empty], 3) == [Cut(1, 0)]
  {
    var inst := StaleInstance();
    var t2 := [Empty, Empty, Chosen(Cut(1, 0)), Empty];
    assert Reconstruct(inst, t2, 0) == [];
    assert Reconstruct(inst, t2, 3) == Reconstruct(inst, t2, 2);
  }
}

=== FILE: rolls.dfy ===
/** The dough roll of `classes.py`: a stock of `length` integer slots with
    defects bucketed by slot, an occupancy map and the list of committed
    biscuit placements. The roll is an immutable value; placing a biscuit
    returns the next roll or the error the source raises. */
module Rolls {
  import opened Biscuits

  /** The two ways the source fails: a defect class missing from a
      tolerance map (a dictionary lookup error) and an illegal cut. */
  datatype Error = KeyError(defectClass: string) | IllegalCut

  datatype Result<T> = Ok(value: T) | Err(error: Error)

  /** The score `evaluate_cut` returns for a rejected cut. */
  const Rejected: int := -1

  /** Defects grouped by slot; only slots holding a defect are keys. */
  type DefectIndex = map<int, seq<Defect>>

  /** A committed cut: where it starts, which biscuit, its defect score. */
  datatype Placement = Placement(position: int, biscuit: Biscuit, score: int)

  datatype DoughRoll = DoughRoll(length: nat, placements: seq<Placement>, occupied: seq<bool>, defectsAt: DefectIndex)

  // ---------------------------------------------------------------------
  // Defect index
  // ---------------------------------------------------------------------

  /** The defects at `slot`, in input order. */
  function SlotDefects(defects: seq<Defect>, slot: int): seq<Defect>
  {
    if defects == [] then []
    else (if defects[0].position == slot then [defects[0]] else []) + SlotDefects(defects[1..], slot)
  }

  lemma {:induction false} SlotDefectsSnoc(defects: seq<Defect>, d: Defect, slot: int)
    ensures SlotDefects(defects + [d], slot) == SlotDefects(defects, slot) + (if d.position == slot then [d] else [])
  {
    var tail := if d.position == slot then [d] else [];
    if defects == [] {
      assert defects + [d] == [d];
      assert SlotDefects([d], slot) == tail + SlotDefects([], slot);
    } else {
      var head := if defects[0].position == slot then [defects[0]] else [];
      assert (defects + [d])[0] == defects[0];
      assert (defects + [d])[1..] == defects[1..] + [d];
      SlotDefectsSnoc(defects[1..], d, slot);
      calc {
        SlotDefects(defects + [d], slot);
        head + SlotDefects(defects[1..] + [d], slot);
        head + (SlotDefects(defects[1..], slot) + tail);
        (head + SlotDefects(defects[1..], slot)) + tail;
        SlotDefects(defects, slot) + tail;
      }
    }
  }

  /** Lookup in the index; a slot without defects reads as empty. */
  function DefectsAt(index: DefectIndex, slot: int): seq<Defect>
  {
    if slot in index then index[slot] else []
  }

  /** Buckets the defects by slot, appending each one in input order. */
  function BuildIndex(defects: seq<Defect>): (index: DefectIndex)
    ensures forall slot :: DefectsAt(index, slot) == SlotDefects(defects, slot)
    ensures forall slot | slot in index :: index[slot] != []
    decreases |defects|
  {
    if defects == [] then map[]
    else
      var prefix := defects[..|defects| - 1];
      var d := defects[|defects| - 1];
      var index := BuildIndex(prefix);
      var next := index[d.position := DefectsAt(index, d.position) + [d]];
      BuildIndexStep(defects, prefix, d, index, next);
      next
  }

  /** Appending the last defect to its slot's bucket indexes the whole list. */
  lemma BuildIndexStep(defects: seq<Defect>, prefix: seq<Defect>, d: Defect, index: DefectIndex, next: DefectIndex)
    requires defects != [] && prefix == defects[..|defects| - 1] && d == defects[|defects| - 1]
    requires forall slot :: DefectsAt(index, slot) == SlotDefects(prefix, slot)
    requires forall slot | slot in index :: index[slot] != []
    requires next == index[d.position := DefectsAt(index, d.position) + [d]]
    ensures forall slot :: DefectsAt(next, slot) == SlotDefects(defects, slot)
    ensures forall slot | slot in next :: next[slot] != []
  {
    assert defects == prefix + [d];
    forall slot
      ensures DefectsAt(next, slot) == SlotDefects(prefix + [d], slot)
    {
      BuildIndexSlot(prefix, d, index, next, slot);
    }
  }

  /** One slot of `BuildIndexStep`: only the bucket of the new defect's
      slot grows, by that defect. */
  lemma BuildIndexSlot(prefix: seq<Defect>, d: Defect, index: DefectIndex, next: DefectIndex, slot: int)
    requires DefectsAt(index, slot) == SlotDefects(prefix, slot)
    requires next == index[d.position := DefectsAt(index, d.position) + [d]]
    ensures DefectsAt(next, slot) == SlotDefects(prefix + [d], slot)
  {
    SlotDefectsSnoc(prefix, d, slot);
    if slot == d.position {
      assert DefectsAt(next, slot) == SlotDefects(prefix, slot) + [d];
    } else {
      assert DefectsAt(next, slot) == SlotDefects(prefix, slot);
    }
  }

  /** The defects of slots `lo, lo+1, ..., hi-1`, slot by slot. */
  function WindowDefects(index: DefectIndex, lo: int, hi: int): seq<Defect>
    decreases hi - lo
  {
    if hi <= lo then [] else DefectsAt(index, lo) + WindowDefects(index, lo + 1, hi)
  }

  /** The defects under a cut of `b` at `p`. */
  function Window(roll: DoughRoll, p: int, b: Biscuit): seq<Defect>
  {
    WindowDefects(roll.defectsAt, p, p + b.size)
  }

  // ---------------------------------------------------------------------
  // Construction
  // ---------------------------------------------------------------------

  /** A fresh roll: nothing placed, nothing occupied, defects bucketed. */
  function NewRoll(length: nat, defects: seq<Defect>): (r: DoughRoll)
    ensures r.length == length && r.placements == []
    ensures |r.occupied| == length && forall i | 0 <= i < length :: !r.occupied[i]
    ensures forall slot :: DefectsAt(r.defectsAt, slot) == SlotDefects(defects, slot)
    ensures Valid(r)
  {
    DoughRoll(length, [], seq(length, _ => false), BuildIndex(defects))
  }

  // ---------------------------------------------------------------------
  // Evaluating a cut
  // ---------------------------------------------------------------------

  /** Walks the defects in order against the remaining tolerance: a class
      whose remaining tolerance is already 0 rejects the cut at once,
      otherwise its tolerance drops by one and the score rises by one. */
  function Scan(defects: seq<Defect>, remaining: map<string, int>, score: nat): (r: Result<int>)
    ensures r.Ok? ==> r.value == Rejected || r.value == score + |defects|
    ensures r.Err? ==>
              && r.error.KeyError?
              && r.error.defectClass !in remaining
              && exists j | 0 <= j < |defects| :: defects[j].defectClass == r.error.defectClass
    ensures KnownClasses(defects, remaining) ==> r.Ok?
    ensures KnownClasses(defects, remaining) && NonNegativeTolerance(remaining) ==>
              r.Ok? && (r.value == Rejected <==> Exceeds(defects, remaining))
    decreases |defects|
  {
    if defects == [] then Ok(score)
    else
      var c := defects[0].defectClass;
      if c !in remaining then Err(KeyError(c))
      else if remaining[c] == 0 then
        assert CountClass(defects, c) > 0;
        Ok(Rejected)
      else
        var next := remaining[c := remaining[c] - 1];
        var r := Scan(defects[1..], next, score + 1);
        ScanStep(defects, remaining);
        r
  }

  /** Consuming one defect of class `c` with positive remaining tolerance
      neither creates nor removes an excess. */
  lemma ScanStep(defects: seq<Defect>, remaining: map<string, int>)
    requires defects != [] && defects[0].defectClass in remaining
    requires remaining[defects[0].defectClass] != 0
    ensures var c := defects[0].defectClass;
            var next := remaining[c := remaining[c] - 1];
            && next.Keys == remaining.Keys
            && (KnownClasses(defects, remaining) ==> KnownClasses(defects[1..], next))
            && (NonNegativeTolerance(remaining) ==> NonNegativeTolerance(next))
            && (NonNegativeTolerance(remaining) ==> (Exceeds(defects, remaining) <==> Exceeds(defects[1..], next)))
  {
    var c := defects[0].defectClass;
    var next := remaining[c := remaining[c] - 1];
    if KnownClasses(defects, remaining) {
      forall j | 0 <= j < |defects[1..]|
        ensures defects[1..][j].defectClass in next
      {
        assert defects[1..][j] == defects[j + 1];
      }
    }
    if NonNegativeTolerance(remaining) {
      if Exceeds(defects, remaining) {
        var e :| e in remaining && CountClass(defects, e) > remaining[e];
        assert CountClass(defects[1..], e) > next[e];
      }
      if Exceeds(defects[1..], next) {
        var e :| e in next && CountClass(defects[1..], e) > next[e];
        assert CountClass(defects, e) > remaining[e];
      }
    }
  }

  /** `evaluate_cut`: scans the cut's slots with a copy of the biscuit's
      tolerance. With every class under the cut known and no negative cap,
      it returns `Rejected` exactly when some class exceeds its cap, and
      otherwise the number of defects under the cut. An unknown class
      raises `KeyError` unless the scan rejects the cut first
      (`EvaluateCutUnknown`). */
  function EvaluateCut(roll: DoughRoll, p: int, b: Biscuit): (r: Result<int>)
    ensures r.Ok? ==> r.value == Rejected || r.value == |Window(roll, p, b)|
    ensures r.Err? ==>
              && r.error.KeyError?
              && r.error.defectClass !in b.tolerance
              && exists j | 0 <= j < |Window(roll, p, b)| :: Window(roll, p, b)[j].defectClass == r.error.defectClass
    ensures KnownClasses(Window(roll, p, b), b.tolerance) ==> r.Ok?
    ensures KnownClasses(Window(roll, p, b), b.tolerance) && NonNegativeTolerance(b.tolerance) ==>
              r.Ok? && (r.value == Rejected <==> Exceeds(Window(roll, p, b), b.tolerance))
  {
    Scan(Window(roll, p, b), b.tolerance, 0)
  }

  /** The other direction of the error path: a walk that neither rejects
      nor fails has met only known classes, so an unknown class in the
      list raises `KeyError` unless the walk rejects the cut before it. */
  lemma {:induction false} ScanUnknown(defects: seq<Defect>, remaining: map<string, int>, score: nat)
    ensures Scan(defects, remaining, score).Ok? && Scan(defects, remaining, score).value != Rejected ==>
              KnownClasses(defects, remaining)
    decreases |defects|
  {
    if defects != [] {
      var c := defects[0].defectClass;
      if c in remaining && remaining[c] != 0 {
        var next := remaining[c := remaining[c] - 1];
        ScanUnknown(defects[1..], next, score + 1);
        if Scan(defects, remaining, score).Ok? && Scan(defects, remaining, score).value != Rejected {
          forall j | 0 <= j < |defects| ensures defects[j].defectClass in remaining {
            if j > 0 {
              assert defects[1..][j - 1] == defects[j];
            }
          }
        }
      }
    }
  }

  /** The error path itself: when the walk reaches an unknown class at `j`
      without having rejected, because every earlier class is known and
      within its cap, the walk raises `KeyError` for that class. */
  lemma {:induction false} ScanFirstUnknown(defects: seq<Defect>, remaining: map<string, int>, score: nat, j: nat)
    requires j < |defects| && defects[j].defectClass !in remaining
    requires KnownClasses(defects[..j], remaining) && NonNegativeTolerance(remaining)
    requires !Exceeds(defects[..j], remaining)
    ensures Scan(defects, remaining, score) == Err(KeyError(defects[j].defectClass))
    decreases j
  {
    if j > 0 {
      FirstUnknownStep(defects, remaining, j);
      var c := defects[0].defectClass;
      ScanFirstUnknown(defects[1..], remaining[c := remaining[c] - 1], score + 1, j - 1);
    }
  }

  /** Before the first unknown class at `j > 0`, the walk consumes the
      first defect, and what is left meets the same conditions at `j - 1`. */
  lemma FirstUnknownStep(defects: seq<Defect>, remaining: map<string, int>, j: nat)
    requires 0 < j < |defects| && defects[j].defectClass !in remaining
    requires KnownClasses(defects[..j], remaining) && NonNegativeTolerance(remaining)
    requires !Exceeds(defects[..j], remaining)
    ensures var c := defects[0].defectClass;
            && c in remaining && remaining[c] != 0
            && var next := remaining[c := remaining[c] - 1];
            && defects[1..][j - 1] == defects[j]
            && defects[j].defectClass !in next
            && KnownClasses(defects[1..][..j - 1], next) && NonNegativeTolerance(next)
            && !Exceeds(defects[1..][..j - 1], next)
  {
    var c := defects[0].defectClass;
    assert defects[..j][0] == defects[0];
    assert CountClass(defects[..j], c) >= 1;
    ScanStep(defects[..j], remaining);
    assert defects[..j][1..] == defects[1..][..j - 1];
  }

  /** The error path on a cut: the first defect under the cut whose class
      the biscuit does not list raises `KeyError`, unless the scan has
      already rejected the cut on a class before it. */
  lemma EvaluateCutFirstUnknown(roll: DoughRoll, p: int, b: Biscuit, j: nat)
    requires j < |Window(roll, p, b)| && Window(roll, p, b)[j].defectClass !in b.tolerance
    requires KnownClasses(Window(roll, p, b)[..j], b.tolerance) && NonNegativeTolerance(b.tolerance)
    requires !Exceeds(Window(roll, p, b)[..j], b.tolerance)
    ensures EvaluateCut(roll, p, b) == Err(KeyError(Window(roll, p, b)[j].defectClass))
  {
    ScanFirstUnknown(Window(roll, p, b), b.tolerance, 0, j);
  }

  /** A cut that `evaluate_cut` neither rejects nor fails has only classes
      the biscuit's tolerance lists under it. */
  lemma EvaluateCutUnknown(roll: DoughRoll, p: int, b: Biscuit)
    ensures EvaluateCut(roll, p, b).Ok? && EvaluateCut(roll, p, b).value != Rejected ==>
              KnownClasses(Window(roll, p, b), b.tolerance)
  {
    ScanUnknown(Window(roll, p, b), b.tolerance, 0);
  }

  // ---------------------------------------------------------------------
  // Legality and placement
  // ---------------------------------------------------------------------

  /** The cut lies inside the roll. */
  predicate InBounds(roll: DoughRoll, p: int, b: Biscuit)
  {
    0 <= p && p + b.size <= roll.length
  }

  /** No slot of `[lo, hi)` is occupied. */
  predicate Free(occupied: seq<bool>, lo: int, hi: int)
  {
    forall i | lo <= i < hi && 0 <= i < |occupied| :: !occupied[i]
  }

  /** `is_legal_cut`: bounds, then occupancy, then the defect check. */
  function IsLegalCut(roll: DoughRoll, p: int, b: Biscuit): (r: Result<bool>)
    requires |roll.occupied| == roll.length
    ensures !InBounds(roll, p, b) ==> r == Ok(false)
    ensures InBounds(roll, p, b) && !Free(roll.occupied, p, p + b.size) ==> r == Ok(false)
    ensures r == Ok(true) ==>
              && InBounds(roll, p, b) && Free(roll.occupied, p, p + b.size)
              && EvaluateCut(roll, p, b).Ok? && EvaluateCut(roll, p, b).value >= 0
    ensures r.Err? ==>
              && InBounds(roll, p, b) && Free(roll.occupied, p, p + b.size)
              && EvaluateCut(roll, p, b) == Err(r.error)
    ensures InBounds(roll, p, b) && Free(roll.occupied, p, p + b.size)
            && KnownClasses(Window(roll, p, b), b.tolerance) && NonNegativeTolerance(b.tolerance) ==>
              r == Ok(!Exceeds(Window(roll, p, b), b.tolerance))
  {
    if p < 0 || p + b.size > roll.length then Ok(false)
    else if exists i | p <= i < p + b.size :: roll.occupied[i] then Ok(false)
    else
      match EvaluateCut(roll, p, b)
      case Err(e) => Err(e)
      case Ok(score) => Ok(score != Rejected)
  }

  /** For a free cut inside the roll, `is_legal_cut` is the defect check:
      it passes `evaluate_cut`'s error through and is otherwise whether the
      score is not -1. A legal cut has only known classes under it. */
  lemma IsLegalCutDefers(roll: DoughRoll, p: int, b: Biscuit)
    requires |roll.occupied| == roll.length
    requires InBounds(roll, p, b) && Free(roll.occupied, p, p + b.size)
    ensures IsLegalCut(roll, p, b) ==
              if EvaluateCut(roll, p, b).Err? then Err(EvaluateCut(roll, p, b).error)
              else Ok(EvaluateCut(roll, p, b).value != Rejected)
    ensures IsLegalCut(roll, p, b) == Ok(true) ==> KnownClasses(Window(roll, p, b), b.tolerance)
  {
    EvaluateCutUnknown(roll, p, b);
  }

  /** The occupancy map with `[lo, hi)` marked. */
  function Mark(occupied: seq<bool>, lo: int, hi: int): seq<bool>
  {
    seq(|occupied|, i requires 0 <= i < |occupied| => occupied[i] || (lo <= i < hi))
  }

  /** Slot `i` lies under placement `pl`. */
  predicate Occupies(pl: Placement, i: int)
  {
    pl.position <= i < pl.position + pl.biscuit.size
  }

  /** Two placements share no slot. */
  predicate Apart(a: Placement, b: Placement)
  {
    || a.position + a.biscuit.size <= b.position
    || b.position + b.biscuit.size <= a.position
    || a.biscuit.size <= 0
    || b.biscuit.size <= 0
  }

  /** A committed placement is in bounds and carries its own defect score. */
  predicate Committed(roll: DoughRoll, pl: Placement)
  {
    && InBounds(roll, pl.position, pl.biscuit)
    && EvaluateCut(roll, pl.position, pl.biscuit) == Ok(pl.score)
    && pl.score >= 0
  }

  /** The roll invariant: every placement is in bounds and legal, the
      placements are pairwise disjoint, and a slot is occupied exactly when
      some placement covers it. */
  ghost predicate Valid(roll: DoughRoll)
  {
    && |roll.occupied| == roll.length
    && (forall j | 0 <= j < |roll.placements| :: Committed(roll, roll.placements[j]))
    && (forall j, k | 0 <= j < k < |roll.placements| :: Apart(roll.placements[j], roll.placements[k]))
    && (forall i | 0 <= i < roll.length ::
          roll.occupied[i] <==> exists j | 0 <= j < |roll.placements| :: Occupies(roll.placements[j], i))
  }

  /** `place_biscuit`: checks legality first and only then appends the
      placement and marks its slots, so a failure changes nothing. */
  function PlaceBiscuit(roll: DoughRoll, p: int, b: Biscuit): (r: Result<DoughRoll>)
    requires |roll.occupied| == roll.length
    ensures r.Ok? <==> IsLegalCut(roll, p, b) == Ok(true)
    ensures IsLegalCut(roll, p, b) == Ok(false) ==> r == Err(IllegalCut)
    ensures IsLegalCut(roll, p, b).Err? ==> r == Err(IsLegalCut(roll, p, b).error)
    ensures r.Ok? ==>
              && r.value.length == roll.length
              && r.value.defectsAt == roll.defectsAt
              && r.value.placements == roll.placements + [Placement(p, b, |Window(roll, p, b)|)]
              && |r.value.occupied| == |roll.occupied|
              && (forall i | 0 <= i < roll.length :: r.value.occupied[i] == (roll.occupied[i] || p <= i < p + b.size))
              && Evaluate(r.value) == Evaluate(roll) + b.value
    ensures r.Ok? && Valid(roll) ==> Valid(r.value)
  {
    match IsLegalCut(roll, p, b)
    case Err(e) => Err(e)
    case Ok(legal) =>
      if !legal then Err(IllegalCut)
      else
        var score := EvaluateCut(roll, p, b).value;
        var next := DoughRoll(roll.length, roll.placements + [Placement(p, b, score)],
                              Mark(roll.occupied, p, p + b.size), roll.defectsAt);
        TotalValueSnoc(roll.placements, Placement(p, b, score));
        PlaceKeepsValid(roll, p, b, next);
        Ok(next)
  }

  lemma PlaceKeepsValid(roll: DoughRoll, p: int, b: Biscuit, next: DoughRoll)
    requires |roll.occupied| == roll.length
    requires IsLegalCut(roll, p, b) == Ok(true)
    requires next == DoughRoll(roll.length, roll.placements + [Placement(p, b, EvaluateCut(roll, p, b).value)],
                               Mark(roll.occupied, p, p + b.size), roll.defectsAt)
    ensures Valid(roll) ==> Valid(next)
  {
    if Valid(roll) {
      var n := Placement(p, b, EvaluateCut(roll, p, b).value);
      var ps := next.placements;
      forall j | 0 <= j < |ps|
        ensures Committed(next, ps[j])
      {
        assert Window(next, ps[j].position, ps[j].biscuit) == Window(roll, ps[j].position, ps[j].biscuit);
        if j < |roll.placements| {
          assert Committed(roll, roll.placements[j]);
        }
      }
      forall j, k | 0 <= j < k < |ps|
        ensures Apart(ps[j], ps[k])
      {
        if k == |roll.placements| {
          DisjointFromFree(roll, ps[j], n, j);
        }
      }
      forall i | 0 <= i < next.length
        ensures next.occupied[i] <==> exists j | 0 <= j < |ps| :: Occupies(ps[j], i)
      {
        OccupiedAfter(roll, n, i);
      }
    }
  }

  /** After appending `n`, slot `i` is covered by some placement exactly
      when it was occupied before or lies under `n`. */
  lemma OccupiedAfter(roll: DoughRoll, n: Placement, i: int)
    requires Valid(roll) && 0 <= i < roll.length
    ensures (roll.occupied[i] || Occupies(n, i)) <==>
            exists j | 0 <= j < |roll.placements + [n]| :: Occupies((roll.placements + [n])[j], i)
  {
    var ps := roll.placements + [n];
    if roll.occupied[i] {
      var j :| 0 <= j < |roll.placements| && Occupies(roll.placements[j], i);
      assert Occupies(ps[j], i);
    }
    if Occupies(n, i) {
      assert Occupies(ps[|ps| - 1], i);
    }
    if exists j | 0 <= j < |ps| :: Occupies(ps[j], i) {
      var j :| 0 <= j < |ps| && Occupies(ps[j], i);
      if j < |roll.placements| {
        assert Occupies(roll.placements[j], i);
      }
    }
  }

  /** A committed placement and a new cut over free slots share no slot. */
  lemma DisjointFromFree(roll: DoughRoll, a: Placement, n: Placement, j: nat)
    requires Valid(roll)
    requires j < |roll.placements| && a == roll.placements[j]
    requires InBounds(roll, n.position, n.biscuit)
    requires Free(roll.occupied, n.position, n.position + n.biscuit.size)
    ensures Apart(a, n)
  {
    assert Committed(roll, a);
    var i := if a.position <= n.position then n.position else a.position;
    if n.position <= i < n.position + n.biscuit.size {
      assert !roll.occupied[i];
      assert !Occupies(a, i);
    }
  }

  // ---------------------------------------------------------------------
  // Total value
  // ---------------------------------------------------------------------

  /** Sum of the biscuit values of the placements. */
  function TotalValue(placements: seq<Placement>): int
  {
    if placements == [] then 0 else placements[0].biscuit.value + TotalValue(placements[1..])
  }

  lemma {:induction false} TotalValueSnoc(placements: seq<Placement>, pl: Placement)
    ensures TotalValue(placements + [pl]) == TotalValue(placements) + pl.biscuit.value
  {
    if placements == [] {
      assert placements + [pl] == [pl];
    } else {
      assert (placements + [pl])[1..] == placements[1..] + [pl];
      TotalValueSnoc(placements[1..], pl);
    }
  }

  /** With no negative value among the placements, the total is at least
      every single placement's value, and so at least 0. */
  lemma {:induction false} TotalValueBounds(placements: seq<Placement>)
    requires forall k | 0 <= k < |placements| :: placements[k].biscuit.value >= 0
    ensures TotalValue(placements) >= 0
    ensures forall k | 0 <= k < |placements| :: placements[k].biscuit.value <= TotalValue(placements)
  {
    if placements != [] {
      TotalValueBounds(placements[1..]);
      forall k | 0 < k < |placements| ensures placements[k].biscuit.value <= TotalValue(placements) {
        assert placements[1..][k - 1] == placements[k];
      }
    }
  }

  /** `evaluate`: the total value of the committed placements. A roll with
      no placement is worth 0; with no negative value, the total is at
      least 0 and at least every placement's value. `TotalValueSnoc` and
      `PlaceBiscuit` state how a placement raises it. */
  function Evaluate(roll: DoughRoll): (r: int)
    ensures roll.placements == [] ==> r == 0
    ensures (forall k | 0 <= k < |roll.placements| :: roll.placements[k].biscuit.value >= 0) ==>
              r >= 0 && forall k | 0 <= k < |roll.placements| :: roll.placements[k].biscuit.value <= r
  {
    var total := TotalValue(roll.placements);
    assert (forall k | 0 <= k < |roll.placements| :: roll.placements[k].biscuit.value >= 0) ==>
             total >= 0 && forall k | 0 <= k < |roll.placements| :: roll.placements[k].biscuit.value <= total by {
      if forall k | 0 <= k < |roll.placements| :: roll.placements[k].biscuit.value >= 0 {
        TotalValueBounds(roll.placements);
      }
    }
    total
  }
}

=== FILE: scenarios.dfy ===
/** Concrete rolls: the optimum the table holds and, where it is short
    enough to follow, the placement list the walk back produces. */
module Scenarios {
  import opened Biscuits
  import opened Optimisation
  import opened PlacementDetails

  /** With a one-class tolerance map, `can_place_biscuit` is a bounds test
      and one count. */
  lemma OneClass(b: Biscuit, position: int, defects: seq<Defect>, doughLength: int, x: string)
    requires b.tolerance.Keys == {x}
    ensures CanPlaceBiscuit(b, position, defects, doughLength) <==>
              position + b.size <= doughLength && CountIn(defects, x, position, position + b.size) <= b.tolerance[x]
  {
  }

  /** A table that starts at 0, never decreases, relaxes every cut and is
      reached by a plan certifies the optimum. */
  lemma Certificate(inst: Instance, values: seq<int>, plan: seq<Cut>)
    requires PositiveLengths(inst.catalog)
    requires |values| == inst.length + 1 && values[0] == 0
    requires MonotoneUpTo(values, inst.length) && Relaxed(inst, values, inst.length, 0)
    requires ValidPlan(inst, plan, 0, inst.length) && PlanValue(inst, plan) == values[inst.length]
    ensures IsOptimum(inst, values[inst.length], inst.length)
  {
    forall other | ValidPlan(inst, other, 0, inst.length)
      ensures PlanValue(inst, other) <= values[inst.length]
    {
      UpperBound(inst, values, other, inst.length);
    }
  }

  // ---------------------------------------------------------------------
  // One biscuit type, no defects
  // ---------------------------------------------------------------------

  function PlainInstance(): Instance
  {
    Instance([Biscuit("A", 4, 6, map["a" := 0])], 10, [])
  }

  /** A ten-slot roll without defects holds two four-slot biscuits worth 6
      each: the optimum is 12. */
  lemma PlainOptimum()
    ensures IsOptimum(PlainInstance(), 12, 10)
  {
    var inst := PlainInstance();
    var values := [0, 0, 0, 0, 6, 6, 6, 6, 12, 12, 12];
    forall q: int
      ensures Fits(inst, 0, q) <==> q + 4 <= 10
    {
      OneClass(inst.catalog[0], q, [], 10, "a");
    }
    forall i, q | 0 <= i < 1 && q <= 10
      ensures RelaxedCut(inst, values, i, q)
    {
    }
    assert MonotoneUpTo(values, 10) by {
      forall j | 0 < j <= 10
        ensures StepUp(values, j)
      {
      }
    }
    var plan := [Cut(0, 0), Cut(0, 4)];
    assert LegalCut(inst, plan[0], 0, 10) && LegalCut(inst, plan[1], 0, 10);
    assert ValidPlan(inst, plan, 0, 10);
    assert plan[..1] == [Cut(0, 0)] && plan[..1][..0] == [];
    Certificate(inst, values, plan);
  }

  // ---------------------------------------------------------------------
  // Two biscuit types, no defects
  // ---------------------------------------------------------------------

  function PairInstance(): Instance
  {
    Instance([Biscuit("S", 2, 3, map[]), Biscuit("M", 3, 5, map[])], 5, [])
  }

  /** A five-slot roll takes one two-slot biscuit worth 3 and one
      three-slot biscuit worth 5: the optimum is 8. */
  lemma PairOptimum()
    ensures IsOptimum(PairInstance(), 8, 5)
  {
    var inst := PairInstance();
    var values := [0, 0, 3, 5, 6, 8];
    forall i, q | 0 <= i < 2 && q <= 5
      ensures RelaxedCut(inst, values, i, q)
    {
    }
    assert MonotoneUpTo(values, 5) by {
      forall j | 0 < j <= 5
        ensures StepUp(values, j)
      {
      }
    }
    var plan := [Cut(0, 0), Cut(1, 2)];
    assert LegalCut(inst, plan[0], 0, 5) && LegalCut(inst, plan[1], 0, 5);
    assert ValidPlan(inst, plan, 0, 5);
    assert plan[..1] == [Cut(0, 0)] && plan[..1][..0] == [];
    Certificate(inst, values, plan);
  }

  // ---------------------------------------------------------------------
  // A biscuit longer than the roll
  // ---------------------------------------------------------------------

  function LongInstance(): Instance
  {
    Instance([Biscuit("L", 6, 4, map[])], 5, [])
  }

  /** Nothing fits in a five-slot roll when the only biscuit is six slots
      long: the optimum is 0 and the placement list is empty. */
  lemma LongOptimum()
    ensures IsOptimum(LongInstance(), 0, 5)
    ensures GetBiscuitPlacementDetails(LongInstance().catalog, 5, []) == []
    ensures GetOptimalPlacementDetails(LongInstance().catalog, 5, []) == []
  {
    var inst := LongInstance();
    forall plan | ValidPlan(inst, plan, 0, 5)
      ensures PlanValue(inst, plan) <= 0
    {
      NothingFits(inst, plan, 5);
    }
    assert ValidPlan(inst, [], 0, 5);
    NothingFits(inst, GetOptimalPlacementDetails(inst.catalog, 5, []), 5);
  }

  // ---------------------------------------------------------------------
  // One biscuit type, one defect
  // ---------------------------------------------------------------------

  /** The biscuit of `PlainInstance` tolerates no defect of class "a", and
      there is one at slot 1. */
  function DefectInstance(): Instance
  {
    Instance([Biscuit("A", 4, 6, map["a" := 0])], 10, [Defect(1, "a")])
  }

  /** From slot 0 on, the biscuit fits exactly at starts 2 to 6. */
  lemma DefectFits(q: nat)
    ensures Fits(DefectInstance(), 0, q) <==> 2 <= q <= 6
  {
    var inst := DefectInstance();
    OneClass(inst.catalog[0], q, inst.defects, 10, "a");
    assert inst.defects[1..] == [];
    assert CountIn(inst.defects, "a", q, q + 4) == (if q <= 1 < q + 4 then 1 else 0);
  }

  /** The defect at slot 1 rules out starts 0 and 1, so the biscuits go
      at 2 and 6: the optimum is still 12. */
  lemma DefectOptimum()
    ensures IsOptimum(DefectInstance(), 12, 10)
  {
    var inst := DefectInstance();
    var values := [0, 0, 0, 0, 0, 0, 6, 6, 6, 6, 12];
    forall i, q | 0 <= i < 1 && q <= 10
      ensures RelaxedCut(inst, values, i, q)
    {
      if q >= 0 {
        DefectFits(q);
      }
    }
    assert MonotoneUpTo(values, 10) by {
      forall j | 0 < j <= 10
        ensures StepUp(values, j)
      {
      }
    }
    var plan := [Cut(0, 2), Cut(0, 6)];
    DefectFits(2);
    DefectFits(6);
    assert LegalCut(inst, plan[0], 0, 10) && LegalCut(inst, plan[1], 0, 10);
    assert ValidPlan(inst, plan, 0, 10);
    assert plan[..1] == [Cut(0, 2)] && plan[..1][..0] == [];
    Certificate(inst, values, plan);
  }

  /** The inner loop on `DefectInstance` at `q`: the one biscuit type
      writes entry `q + 4` when it fits at `q` and strictly improves it. */
  lemma DefectRelax(q: nat, v: seq<int>, t: seq<Track>)
    requires q <= 10 && |v| == |t| == 11
    ensures Relax(DefectInstance(), q, 0, v, t) ==
              if 2 <= q <= 6 && v[q] + 6 > v[q + 4] then (v[q + 4 := v[q] + 6], t[q + 4 := Chosen(Cut(0, q))])
              else (v, t)
  {
    DefectFits(q);
  }

  /** Positions 0 to 2 of the tracked sweep on `DefectInstance`. */
  lemma DefectSweepStart()
    ensures var e := Empty;
            Sweep(DefectInstance(), 0, seq(11, _ => 0), seq(11, _ => Empty)) ==
            Sweep(DefectInstance(), 3, [0, 0, 0, 0, 0, 0, 6, 0, 0, 0, 0], [e, e, e, e, e, e, Chosen(Cut(0, 2)), e, e, e, e])
  {
    var inst := DefectInstance();
    var e := Empty;
    var v0 := [0, 0, 0, 0, 0, 0, 0, 0, 0, 0, 0];
    var t0 := [e, e, e, e, e, e, e, e, e, e, e];
    var v2 := v0[6 := 6];
    var t2 := t0[6 := Chosen(Cut(0, 2))];
    assert v2 == [0, 0, 0, 0, 0, 0, 6, 0, 0, 0, 0];
    assert t2 == [e, e, e, e, e, e, Chosen(Cut(0, 2)), e, e, e, e];
    assert seq(11, _ => 0) == v0 && seq(11, _ => Empty) == t0;
    assert Step(inst, 0, v0, t0) == (v0, t0) by {
      assert v0[1 := Max(v0[1], v0[0])] == v0;
      DefectRelax(0, v0, t0);
    }
    assert Step(inst, 1, v0, t0) == (v0, t0) by {
      assert v0[2 := Max(v0[2], v0[1])] == v0;
      DefectRelax(1, v0, t0);
    }
    assert Step(inst, 2, v0, t0) == (v2, t2) by {
      assert v0[3 := Max(v0[3], v0[2])] == v0;
      DefectRelax(2, v0, t0);
    }
    assert Sweep(inst, 0, v0, t0) == Sweep(inst, 1, v0, t0);
    assert Sweep(inst, 1, v0, t0) == Sweep(inst, 2, v0, t0);
    assert Sweep(inst, 2, v0, t0) == Sweep(inst, 3, v2, t2);
  }

  /** Positions 3 and 4 of the tracked sweep on `DefectInstance`. */
  lemma DefectSweepMiddle()
    ensures var e := Empty;
            Sweep(DefectInstance(), 3, [0, 0, 0, 0, 0, 0, 6, 0, 0, 0, 0], [e, e, e, e, e, e, Chosen(Cut(0, 2)), e, e, e, e]) ==
            Sweep(DefectInstance(), 5, [0, 0, 0, 0, 0, 0, 6, 6, 6, 0, 0],
                  [e, e, e, e, e, e, Chosen(Cut(0, 2)), Chosen(Cut(0, 3)), Chosen(Cut(0, 4)), e, e])
  {
    var inst := DefectInstance();
    var e := Empty;
    var v2 := [0, 0, 0, 0, 0, 0, 6, 0, 0, 0, 0];
    var t2 := [e, e, e, e, e, e, Chosen(Cut(0, 2)), e, e, e, e];
    var v3 := v2[7 := 6];
    var t3 := t2[7 := Chosen(Cut(0, 3))];
    var v4 := v3[8 := 6];
    var t4 := t3[8 := Chosen(Cut(0, 4))];
    assert v4 == [0, 0, 0, 0, 0, 0, 6, 6, 6, 0, 0];
    assert t4 == [e, e, e, e, e, e, Chosen(Cut(0, 2)), Chosen(Cut(0, 3)), Chosen(Cut(0, 4)), e, e];
    assert Step(inst, 3, v2, t2) == (v3, t3) by {
      assert v2[4 := Max(v2[4], v2[3])] == v2;
      DefectRelax(3, v2, t2);
    }
    assert Step(inst, 4, v3, t3) == (v4, t4) by {
      assert v3[5 := Max(v3[5], v3[4])] == v3;
      DefectRelax(4, v3, t3);
    }
    assert Sweep(inst, 3, v2, t2) == Sweep(inst, 4, v3, t3);
    assert Sweep(inst, 4, v3, t3) == Sweep(inst, 5, v4, t4);
  }

  /** Positions 5 to 9 of the tracked sweep on `DefectInstance`. */
  lemma DefectSweepTail()
    ensures var e := Empty;
            Sweep(DefectInstance(), 5, [0, 0, 0, 0, 0, 0, 6, 6, 6, 0, 0],
                  [e, e, e, e, e, e, Chosen(Cut(0, 2)), Chosen(Cut(0, 3)), Chosen(Cut(0, 4)), e, e]) ==
            ([0, 0, 0, 0, 0, 0, 6, 6, 6, 6, 12],
             [e, e, e, e, e, e, Chosen(Cut(0, 2)), Chosen(Cut(0, 3)), Chosen(Cut(0, 4)), Chosen(Cut(0, 5)), Chosen(Cut(0, 6))])
  {
    var inst := DefectInstance();
    var e := Empty;
    var v4 := [0, 0, 0, 0, 0, 0, 6, 6, 6, 0, 0];
    var t4 := [e, e, e, e, e, e, Chosen(Cut(0, 2)), Chosen(Cut(0, 3)), Chosen(Cut(0, 4)), e, e];
    var v5 := v4[9 := 6];
    var t5 := t4[9 := Chosen(Cut(0, 5))];
    var v6 := v5[10 := 12];
    var t6 := t5[10 := Chosen(Cut(0, 6))];
    assert v6 == [0, 0, 0, 0, 0, 0, 6, 6, 6, 6, 12];
    assert t6 == [e, e, e, e, e, e, Chosen(Cut(0, 2)), Chosen(Cut(0, 3)), Chosen(Cut(0, 4)), Chosen(Cut(0, 5)), Chosen(Cut(0, 6))];
    assert Step(inst, 5, v4, t4) == (v5, t5) by {
      assert v4[6 := Max(v4[6], v4[5])] == v4;
      DefectRelax(5, v4, t4);
    }
    assert Step(inst, 6, v5, t5) == (v6, t6) by {
      assert v5[7 := Max(v5[7], v5[6])] == v5;
      DefectRelax(6, v5, t5);
    }
    assert Step(inst, 7, v6, t6) == (v6, t6) by {
      assert v6[8 := Max(v6[8], v6[7])] == v6;
      DefectRelax(7, v6, t6);
    }
    assert Step(inst, 8, v6, t6) == (v6, t6) by {
      assert v6[9 := Max(v6[9], v6[8])] == v6;
      DefectRelax(8, v6, t6);
    }
    assert Step(inst, 9, v6, t6) == (v6, t6) by {
      assert v6[10 := Max(v6[10], v6[9])] == v6;
      DefectRelax(9, v6, t6);
    }
    assert Sweep(inst, 5, v4, t4) == Sweep(inst, 6, v5, t5);
    assert Sweep(inst, 6, v5, t5) == Sweep(inst, 7, v6, t6);
    assert Sweep(inst, 7, v6, t6) == Sweep(inst, 8, v6, t6);
    assert Sweep(inst, 8, v6, t6) == Sweep(inst, 9, v6, t6);
    assert Sweep(inst, 9, v6, t6) == Sweep(inst, 10, v6, t6);
    assert Sweep(inst, 10, v6, t6) == (v6, t6);
  }

  lemma DefectSweep()
    ensures Tables(DefectInstance()) ==
              ([0, 0, 0, 0, 0, 0, 6, 6, 6, 6, 12],
               [Empty, Empty, Empty, Empty, Empty, Empty,
                Chosen(Cut(0, 2)), Chosen(Cut(0, 3)), Chosen(Cut(0, 4)), Chosen(Cut(0, 5)), Chosen(Cut(0, 6))])
  {
    DefectSweepStart();
    DefectSweepMiddle();
    DefectSweepTail();
  }

  /** The walk back over the tracker of `DefectInstance`: entry 10 records
      the cut at 6, entry 6 the cut at 2, and entries 2 to 0 nothing. */
  lemma DefectWalk()
    ensures var e := Empty;
            Reconstruct(DefectInstance(),
                        [e, e, e, e, e, e, Chosen(Cut(0, 2)), Chosen(Cut(0, 3)), Chosen(Cut(0, 4)), Chosen(Cut(0, 5)), Chosen(Cut(0, 6))],
                        10) == [Cut(0, 2), Cut(0, 6)]
  {
    var inst := DefectInstance();
    var e := Empty;
    var t := [e, e, e, e, e, e, Chosen(Cut(0, 2)), Chosen(Cut(0, 3)), Chosen(Cut(0, 4)), Chosen(Cut(0, 5)), Chosen(Cut(0, 6))];
    assert Reconstruct(inst, t, 0) == [];
    assert Reconstruct(inst, t, 2) == [];
    assert Reconstruct(inst, t, 6) == [Cut(0, 2)];
  }

  /** `get_biscuit_placement_details` on `DefectInstance` places the
      biscuit at 2 and at 6. */
  lemma DefectDetails()
    ensures GetBiscuitPlacementDetails(DefectInstance().catalog, 10, DefectInstance().defects) == [Cut(0, 2), Cut(0, 6)]
  {
    DefectSweep();
    DefectWalk();
  }
}
